=== FILE: README.md ===
# Screen recorder with a custom cursor: a Dafny model of its core

The recorder captures one monitor at a target frame rate. On each frame it draws a custom
cursor sprite with per-pixel transparency, writes the frame to a video file and shows it in a
preview window. It stops on the F5 hotkey, on `q` in the preview window, or when the window is
closed.

This project models the parts with algorithmic content:

- **The cursor compositor** `overlay_image_alpha`, in modules `Overlay` and `OverlayProperties`.
  The sprite's top-left corner may be at any integer position, including fully off the frame.
  The compositor clips the sprite rectangle against the frame and computes the matching
  sprite rectangle. It then alpha-blends that part of the sprite into the frame.
- **The blend**, in module `Pixels`. Pixels are `(b, g, r)` for the frame and `(b, g, r, a)`
  for the sprite, each channel `0..255`. One channel of the blend is
  `((255 - a) * bg + a * fg) / 255`, truncated.
- **Buffers**, in module `Images`. A buffer is a rectangular `seq<seq<T>>` indexed
  `[row][column]`. `Crop` models numpy's region read and `Paste` its region assignment.
- **Glue from `main`**:
  - the codec choice by file-name suffix, with OpenCV's four-character code (module `Codec`);
  - the cursor-load decision, the monitor-index check, the preview size and the translation
    of screen coordinates to frame coordinates (module `Setup`).
- **The recording loop**, in module `Recording`. It is a state machine driven by a finite
  script of ticks. A tick is one pass of `while True`, or a keyboard interrupt before a pass,
  or another exception that a collaborator raises before the pass writes its frame. A pass
  supplies what the pass observes:
  - the captured frame;
  - the pointer position;
  - the key code;
  - the F5 flag;
  - whether the preview window is visible;
  - the elapsed time, in integer units.

  The model's output is the ordered log of effects on collaborators: open writer (on the output file), open
  preview, write frame, show frame, sleep, release writer, destroy windows, stop listener.
  `Loop` is the `while True` loop. `Run` adds the `finally` block. `RecordScreen` is the whole
  of `main`, from setup to exit status. When the script runs out without a stop, the recorder
  is still recording and has not cleaned up.

Where the program's own text promises something its code does not do, the model follows the
code:

- Monitor index 0 (the capture library's entry spanning all monitors) is accepted. The check at
  `screen_recorder.py:165` admits `0 <= m < len(monitors)`. The `--monitor` help text (line 25,
  "1 = primary") and the error message at line 167 ("Available monitors: 1 to ...") both list
  the valid indices as starting at 1.
- A cursor path that does not exist means "record without a cursor", whatever the path is. The
  comment at line 158 speaks only of the *default* `cursor.png` being missing.
- A path that exists but does not decode is fatal. So is a decoded image with a requested
  size of 0 or less, because `cv2.resize` raises for it. That exception is not the
  `FileNotFoundError` caught at line 154, so it ends the program with status 1 before the
  writer is opened.
- The F5 flag, the `q` key and window closure are tested only after the pass has written and
  shown its frame. So a stop already requested when a pass starts still produces one more
  frame (`Recording.StopFlagAtPassStartStillWritesOneFrame`). No frame follows cleanup.
- An exception other than `KeyboardInterrupt` inside the loop is not caught. The `finally`
  block still cleans up, and the program then ends with status 1
  (`Recording.FaultInFirstPass`).
- The `.mp4` test is case-sensitive: `clip.MP4` gets the `XVID` codec.

## Model

| member | source | states |
|---|---|---|
| `Pixels.Blend` | screen_recorder.py:121-130 | The result is `(1 - a) * bg + a * fg` with `a = alpha / 255`, computed exactly and truncated. Alpha 0 gives the frame value exactly and alpha 255 the sprite value. Every result lies between the two inputs, so the `uint8` cast never wraps. |
| `Pixels.TruncatedBlendUnique` | screen_recorder.py:127-130 | The truncation bound in `Blend`'s contract determines the value: any integer meeting it is `Blend`'s result. |
| `Pixels.BlendMonotoneInAlpha` | screen_recorder.py:122-127 | A larger alpha moves the result towards the sprite's value and never away from it. |
| `Pixels.BlendSymmetric` | screen_recorder.py:122-127 | Blending `fg` over `bg` with alpha `a` equals blending `bg` over `fg` with alpha `255 - a`. |
| `Pixels.BlendPixel` | screen_recorder.py:120-127 | Each of the blue, green and red channels is the truncated blend of that channel with the sprite's single alpha. Alpha 0 keeps the frame pixel; alpha 255 gives the sprite's colour. |
| `Images.Crop` | screen_recorder.py:117-118 | A region read `g[top:bottom, left:right]` has `bottom - top` rows of `right - left` elements. Element `(i, j)` of the region is `g[top + i][left + j]`. |
| `Images.Paste` | screen_recorder.py:130 | Assigning a patch at `(top, left)` keeps the buffer's dimensions. Elements inside the patch's rectangle come from the patch at the same offset, and all others are unchanged. |
| `Overlay.BlendRegion` | screen_recorder.py:121-127 | Two equally sized regions blend pixel by pixel into a region of the same size. |
| `Overlay.BlendAtPixel` | screen_recorder.py:115-130 | For any placement inside both buffers, frame pixels inside the box are blended with the sprite pixel at the same offset inside the sprite rectangle. Pixels outside the box are unchanged. |
| `Overlay.Clip` | screen_recorder.py:87-112 | The early return happens exactly when the sprite shares no column or no row with the frame. Otherwise: the destination box lies inside the frame; the source rectangle lies inside the sprite and has the box's width and height. The source corner is the box corner minus `(x, y)`. The box is exactly the set of frame columns and rows that the sprite covers. |
| `Overlay.OverlayImageAlpha` | screen_recorder.py:74-130 | Holds for every integer `x`, `y`. The frame keeps its dimensions. A frame pixel `(i, j)` under the sprite becomes the blend of itself with sprite pixel `(i - y, j - x)`. Every other pixel keeps its value. |
| `OverlayProperties.OffFrameLeavesFrameUnchanged` | screen_recorder.py:102-104 | A sprite wholly left of, right of, above or below the frame triggers the early return, and the frame is identical afterwards. |
| `OverlayProperties.OverlayConfinedToClipBox` | screen_recorder.py:108-130 | Pixels outside the box `Clip` computes are untouched. Inside the box, frame pixel `(i, j)` uses the sprite pixel at the same offset within the source rectangle. |
| `OverlayProperties.TransparentSpriteLeavesFrameUnchanged` | screen_recorder.py:121-130 | A sprite whose alpha is 0 everywhere leaves the frame identical at any position. |
| `OverlayProperties.OpaqueSpriteReplacesCoveredPixels` | screen_recorder.py:121-130 | A sprite whose alpha is 255 everywhere sets every covered pixel to the sprite's colour and leaves the rest unchanged. |
| `OverlayProperties.ClipStraddlingLeftEdge` | screen_recorder.py:92-112 | A 32 by 32 sprite at `(-20, 50)` on a 100 by 100 frame draws sprite columns `[20, 32)` into frame columns `[0, 12)` and rows `[50, 82)`. |
| `OverlayProperties.ClipBottomRightCorner` | screen_recorder.py:92-112 | A 32 by 32 sprite at `(90, 90)` on a 100 by 100 frame draws only its top-left 10 by 10 corner, into rows and columns `[90, 100)`. |
| `OverlayProperties.OpaqueRedCorner` | screen_recorder.py:74-130 | An opaque red 32 by 32 sprite at `(90, 90)` on a 100 by 100 frame turns exactly `[90:100, 90:100]` red. All other pixels are unchanged. |
| `Codec.GetCodec` | screen_recorder.py:51-55 | The codec is `mp4v` exactly when the name ends in `.mp4`, and `XVID` otherwise. |
| `Codec.EndsWithIffConcatenation` | screen_recorder.py:53 | The suffix test holds exactly when the name is some string followed by `.mp4`. |
| `Codec.Mp4SuffixSelectsMp4v` | screen_recorder.py:53-54 | Any name with `.mp4` appended selects `mp4v`. |
| `Codec.UpperCaseExtensionFallsBack` | screen_recorder.py:53-55 | `clip.MP4` selects `XVID`, because the test is case-sensitive. |
| `Codec.Fourcc` | screen_recorder.py:54-55 | A four-character code packs into 32 bits. |
| `Codec.UnpackFourcc` | screen_recorder.py:54-55 | A packed code gives back its four 8-bit characters, first character in the low byte. |
| `Setup.LoadCursor` | screen_recorder.py:143-159 | The load fails in exactly two cases: a path that exists but does not decode, and a decoded image with a requested size of 0 or less, which `cv2.resize` rejects. A missing path means no sprite, whatever the size. Otherwise the resized image becomes the sprite. |
| `Setup.SelectMonitor` | screen_recorder.py:165-170 | An index is accepted exactly when `0 <= m < len(monitors)`, and then selects that entry. Any other index is an error that carries the index. |
| `Setup.AllMonitorsEntryAccepted` | screen_recorder.py:164-168 | On a non-empty list, index 0 is accepted, while -1 and `len(monitors)` are rejected. |
| `Setup.PreviewSize` | screen_recorder.py:192-194 | The preview is the capture size divided by 4, rounded down, in each direction. |
| `Setup.ToFrame` | screen_recorder.py:217-219 | Translating back to screen coordinates recovers the pointer. The result lies inside the frame exactly when the pointer is on the monitor. |
| `Setup.FrameCoordinatesRoundTrip` | screen_recorder.py:218-219 | Frame coordinates translated to the screen and back are unchanged. |
| `Recording.LowByte` | screen_recorder.py:231 | `key & 0xFF` is in `0..255` and congruent to the key modulo 256, negative keys included. |
| `Recording.QuitKeyCodes` | screen_recorder.py:231 | No key (-1) does not stop the loop; `q` does. Bits above the low byte do not matter. |
| `Recording.Pace` | screen_recorder.py:234-238 | A sleep happens exactly when the pass took less than the period, and it lasts until the period is reached. |
| `Recording.CycleLength` | screen_recorder.py:234-238 | A pass plus its sleep lasts exactly the longer of the period and the pass itself, so an overrun is never made up. |
| `Recording.Composite` | screen_recorder.py:212-223 | The written frame keeps the captured frame's dimensions. Without a sprite it is the capture. With a sprite, the sprite's corner is at the pointer's frame coordinates (`Setup.ToFrame`: the pointer minus the monitor origin). Each pixel under the sprite is the blend of the captured pixel with the sprite pixel at the same offset from that corner. Every other pixel is the capture's. |
| `Recording.FirstStop` | screen_recorder.py:204-232 | No tick before the returned index ends the loop, and the tick at that index does. |
| `Recording.Loop` | screen_recorder.py:204-238 | The loop is still running exactly when no tick stops it. It ends by interrupt, or by exception, exactly when the first stopping tick is one. The log is every full pass before that tick, in order, where a pass is: write its frame, show it, then sleep if the pacing rule asks. If the stopping tick is a pass, its write and show follow. The log is in pass order: it starts with a write, a write is followed by the show of the same frame, and a sleep only follows a show. It writes the composited capture of each pass, shows each frame it writes, and never cleans up. |
| `Recording.Run` | screen_recorder.py:203-247 | Release, destroy-windows and stop-listener each happen exactly once when the loop has ended, whether by break, interrupt or exception. None happens while the loop runs. They are the last three actions. Everything before them is the loop's log, pass by pass: each full pass before the first stopping tick, with its sleep right after it, then the write and show of a stopping pass. That log is in pass order. An exception propagates exactly when the loop was left by one. Frames, shows and sleeps are those of the loop. |
| `Recording.StopFlagAtPassStartStillWritesOneFrame` | screen_recorder.py:225-232 | A pass that starts with the F5 flag already set still writes its frame, exactly one, and then the recorder stops. |
| `Recording.SleepFollowsItsPass` | screen_recorder.py:204-247 | A pass shorter than the period sleeps `period - elapsed` right after its own write and show, before the next pass. A pass that overruns the period does not sleep. An interrupt after it leads straight to the cleanup. |
| `Recording.RunLog` | screen_recorder.py:203-247 | The recorder's log is the loop's log, followed by the cleanup exactly when some tick has stopped the loop. |
| `Recording.InterruptBeforeFirstPass` | screen_recorder.py:240-247 | An interrupt before the first pass writes no frame and runs cleanup once. |
| `Recording.RecordScreen` | screen_recorder.py:137-247 | A setup failure means no action at all. A setup failure is an undecodable cursor file, a cursor size the resize rejects, or an out-of-range monitor index. After a successful setup the writer is opened first, on the output file, with the codec that file's name selects and the monitor's size, then the preview at a quarter of that size. One frame is written per pass. Once the recording ends, the last three actions are the cleanup: exactly one release, one destroy-windows and one stop-listener. Everything after the two openings is the recorder's log for the session with the selected monitor, the decoded sprite (none for a missing file) and the requested period. Each frame written is that session's composited capture of its pass. The sleeps are that period's pauses. Exit status 1 happens exactly on a setup failure or a recording ended by an exception. Status 0 happens exactly on a recording ended by a stop condition or a keyboard interrupt. |
| `Recording.MissingCursorRecordsCaptures` | screen_recorder.py:140-224 | A cursor path that does not exist leads, after a successful setup, to every written frame being its pass's raw capture. |
| `Recording.DecodedCursorSession` | screen_recorder.py:145-224 | With a decoded cursor file and a successful setup, every written frame is the capture of its pass composited with that sprite, on the selected monitor, with the requested period. |
| `Recording.FaultInFirstPass` | screen_recorder.py:203-247 | An exception in the first pass after a successful setup writes no frame, runs the cleanup once right after the openings, and ends with status 1. |

## Left out

- Screen grabbing, the video writer, the preview window (`imshow`, `waitKey`, `getWindowProperty`), the pointer query, image decoding, resizing and the BGRA to BGR conversion are library calls. Their results are inputs: the frame, pointer, key code, window visibility and sprite in a tick or cursor file.
- The keyboard listener thread and its global `stop_recording` flag (`on_press`, lines 58-71) run concurrently. The flag's value at each stop test is a boolean input of the tick.
- Argument parsing (lines 20-48) is left out. The `--no-cursor` option is parsed but never read, so it has no model. The frame rate is a float; the model takes the frame period directly, in integer time units, and wall-clock time becomes the tick's elapsed time. A frame rate of 0 raises a division error at line 201, outside the `try`/`finally`; that path is not modelled.
- Pixels.Blend: computes the exact rational blend truncated to an integer. The source computes it in float64 with `alpha / 255.0`, so at alphas strictly between 0 and 255 its truncated result can be one below the model's where the exact value is a whole number. Alpha 0 and 255 are exact in both.
- The `try`/`except` around the blend (lines 115-133) is left out. With a four-channel sprite it cannot fire: `Overlay.Clip` proves both slices in bounds and equally sized. A three-channel sprite file (colour without alpha) would raise inside the `try` and leave the frame unchanged. The model's sprites are always 8-bit with four channels.
- The `except Exception` around monitor setup (lines 180-183) only catches failures of the capture library's monitor records, which are outside the model.
- A keyboard interrupt is modelled only at a pass boundary, and another exception only before a pass writes its frame (the screen grab, the colour conversion or the pointer query raising). The overlay never raises out of a pass: its arithmetic on shapes cannot fail, and an error inside the blend is caught (lines 115 and 132-134), so the pass then writes and shows the capture unblended and the loop goes on. An interrupt during a pass's sleep leads to the same log. An interrupt or exception arriving between a pass's write and its show, or after the stop test, is not modelled.
- Sprite files in other formats are not modelled. The loader at line 147 reads the file unchanged. A single-channel (grey) file becomes a two-dimensional array. For a visible box of at least 4 columns, the alpha slice then picks one column, and broadcasting can blend without raising: for a square box, frame pixel `(r, c)` uses sprite row `c`. A 16-bit file keeps alpha values up to 65535, so the blend can leave `0..255` and the `uint8` cast wraps.
- Recording.RecordScreen: does not model exceptions raised while opening the writer or the preview window (lines 186-194). Those happen before the `try` and end the program with status 1 without cleanup.
- Setup.LoadCursor: does not state that the resized sprite is `size` by `size` pixels. The resize and its interpolation are a library computation whose output is an input of the model.
- Console messages and the closing of the capture context are not modelled.
- The model does not check that captured frames have the monitor's size; the source does not either.

=== FILE: codec.dfy ===
/** Choice of the video writer's codec from the output file name. */
module Codec {

  /** `s.endswith(suffix)`: the last `|suffix|` characters of `s` are `suffix`. */
  predicate EndsWith(s: string, suffix: string) {
    |suffix| <= |s| && s[|s| - |suffix|..] == suffix
  }

  /** `EndsWith` holds exactly when `s` is some string followed by `suffix`. */
  lemma EndsWithIffConcatenation(s: string, suffix: string)
    ensures EndsWith(s, suffix) <==> exists front :: s == front + suffix
  {
    if EndsWith(s, suffix) {
      var front := s[..|s| - |suffix|];
      assert s == front + suffix;
    }
    if exists front :: s == front + suffix {
      var front :| s == front + suffix;
      assert s[|front|..] == suffix;
    }
  }

  /** OpenCV's four-character code: the low byte of each character, first character in the
      least significant byte. */
  function Fourcc(code: string): (v: int)
    requires |code| == 4
    ensures 0 <= v < 0x1_0000_0000
  {
    var b0, b1, b2, b3 := code[0] as int % 256, code[1] as int % 256, code[2] as int % 256, code[3] as int % 256;
    assert 0 <= b2 + 256 * b3 < 0x1_0000;
    assert 0 <= b1 + 256 * (b2 + 256 * b3) < 0x100_0000;
    b0 + 256 * (b1 + 256 * (b2 + 256 * b3))
  }

  /** The four bytes of a code, least significant first. */
  function Unpack(v: int): seq<int> {
    [v % 256, (v / 256) % 256, (v / 256 / 256) % 256, (v / 256 / 256 / 256) % 256]
  }

  /** Splitting `b + 256 * q` into its low byte and the rest. */
  lemma SplitLowByte(b: int, q: int)
    requires 0 <= b < 256
    ensures (b + 256 * q) % 256 == b && (b + 256 * q) / 256 == q
  {
  }

  /** A code built from 8-bit characters gives those characters back, in order. */
  lemma UnpackFourcc(code: string)
    requires |code| == 4
    requires forall i :: 0 <= i < 4 ==> code[i] as int < 256
    ensures Unpack(Fourcc(code)) == [code[0] as int, code[1] as int, code[2] as int, code[3] as int]
  {
    var b0, b1, b2, b3 := code[0] as int, code[1] as int, code[2] as int, code[3] as int;
    assert b0 % 256 == b0 && b1 % 256 == b1 && b2 % 256 == b2 && b3 % 256 == b3;
    var q2 := b3;
    var q1 := b2 + 256 * q2;
    var q0 := b1 + 256 * q1;
    var v := Fourcc(code);
    assert v == b0 + 256 * q0;
    SplitLowByte(b0, q0);
    SplitLowByte(b1, q1);
    SplitLowByte(b2, q2);
    SplitLowByte(b3, 0);
    assert v / 256 == q0 && v / 256 / 256 == q1 && v / 256 / 256 / 256 == q2;
  }

  /** The codec for an output file: `mp4v` for names ending in `.mp4`, `XVID` for every other
      name. The test is case-sensitive. */
  function GetCodec(filename: string): (c: int)
    ensures c == Fourcc("mp4v") <==> EndsWith(filename, ".mp4")
    ensures c != Fourcc("mp4v") ==> c == Fourcc("XVID")
  {
    if EndsWith(filename, ".mp4") then Fourcc("mp4v") else Fourcc("XVID")
  }

  /** Appending `.mp4` to any name selects `mp4v`. */
  lemma Mp4SuffixSelectsMp4v(stem: string)
    ensures GetCodec(stem + ".mp4") == Fourcc("mp4v")
  {
    EndsWithIffConcatenation(stem + ".mp4", ".mp4");
  }

  /** The upper-case extension `.MP4` does not match and falls back to `XVID`. */
  lemma UpperCaseExtensionFallsBack()
    ensures GetCodec("clip.MP4") == Fourcc("XVID")
  {
    assert "clip.MP4"[5] == 'M';
  }
}

=== FILE: images.dfy ===
/** Dense two-dimensional buffers indexed `[row][column]`, with the two numpy slicing
    operations the compositor uses: reading a rectangular region and assigning one back. */
module Images {

  /** Every row has the length of the first one. */
  predicate IsRect<T>(g: seq<seq<T>>) {
    forall i :: 0 <= i < |g| ==> |g[i]| == |g[0]|
  }

  /** A rectangular buffer: `Height` rows of `Width` elements each. */
  type Image<T> = g: seq<seq<T>> | IsRect(g) witness []

  function Height<T>(g: Image<T>): nat {
    |g|
  }

  function Width<T>(g: Image<T>): nat {
    if |g| == 0 then 0 else |g[0]|
  }

  /** The region `g[top:bottom, left:right]`. */
  function Crop<T>(g: Image<T>, top: int, bottom: int, left: int, right: int): (r: Image<T>)
    requires 0 <= top <= bottom <= Height(g)
    requires 0 <= left <= right <= Width(g)
    ensures Height(r) == bottom - top
    ensures forall i :: 0 <= i < |r| ==> |r[i]| == right - left
    ensures forall i, j :: 0 <= i < bottom - top && 0 <= j < right - left ==> r[i][j] == g[top + i][left + j]
  {
    seq(bottom - top, i requires 0 <= i < bottom - top => g[top + i][left..right])
  }

  /** The buffer after `g[top:top + h, left:left + w] = patch`, where `patch` is `h` by `w`:
      the patch lands at the offset and nothing else changes. */
  function Paste<T>(g: Image<T>, top: int, left: int, patch: Image<T>): (r: Image<T>)
    requires 0 <= top && top + Height(patch) <= Height(g)
    requires 0 <= left && left + Width(patch) <= Width(g)
    ensures Height(r) == Height(g) && Width(r) == Width(g)
    ensures forall i, j :: 0 <= i < Height(g) && 0 <= j < Width(g) ==>
      r[i][j] == if top <= i < top + Height(patch) && left <= j < left + Width(patch)
                 then patch[i - top][j - left] else g[i][j]
  {
    seq(|g|, i requires 0 <= i < |g| =>
      if top <= i < top + |patch| then Splice(g[i], left, patch[i - top]) else g[i])
  }

  /** One row of `Paste`: `row[left:left + len(part)] = part`. */
  function Splice<T>(row: seq<T>, left: int, part: seq<T>): (r: seq<T>)
    requires 0 <= left && left + |part| <= |row|
    ensures |r| == |row|
    ensures forall j :: 0 <= j < |row| ==> r[j] == if left <= j < left + |part| then part[j - left] else row[j]
  {
    row[..left] + part + row[left + |part|..]
  }
}

=== FILE: overlay.dfy ===
/** The cursor compositor: clips a cursor sprite placed at integer frame coordinates against
    the frame, then alpha-blends the visible part of the sprite into the frame. */
module Overlay {
  import opened Results
  import opened Pixels
  import opened Images

  /** A captured frame after the BGRA to BGR conversion. */
  type Frame = Image<Pixel>

  /** The cursor glyph, already resized, with its alpha channel. */
  type Sprite = Image<SpritePixel>

  /** The half-open rectangle `[left, right) x [top, bottom)`. */
  datatype Rect = Rect(left: int, top: int, right: int, bottom: int)

  /** Where the blend happens: `box` on the frame and the equally sized `img` on the sprite. */
  datatype Placement = Placement(box: Rect, img: Rect)

  predicate InSpan(v: int, lo: int, hi: int) {
    lo <= v < hi
  }

  /** A span of `len` cells starting at `start` shares at least one cell with `[0, extent)`. */
  predicate Overlaps(start: int, len: int, extent: int) {
    0 < len && 0 < extent && start < extent && 0 < start + len
  }

  /** The clipping arithmetic of the compositor for a `cursorW` by `cursorH` sprite whose
      top-left corner is at `(x, y)` on a `screenW` by `screenH` frame. `None` is the early
      return taken when the clipped box has no area. */
  function Clip(screenW: nat, screenH: nat, cursorW: nat, cursorH: nat, x: int, y: int): (p: Option<Placement>)
    ensures p.Some? <==> Overlaps(x, cursorW, screenW) && Overlaps(y, cursorH, screenH)
    ensures p.None? ==>
      || (forall c :: !(InSpan(c, 0, screenW) && InSpan(c, x, x + cursorW)))
      || (forall r :: !(InSpan(r, 0, screenH) && InSpan(r, y, y + cursorH)))
    ensures p.Some? ==>
      && 0 <= p.value.box.left < p.value.box.right <= screenW
      && 0 <= p.value.box.top < p.value.box.bottom <= screenH
    ensures p.Some? ==>
      && 0 <= p.value.img.left < p.value.img.right <= cursorW
      && 0 <= p.value.img.top < p.value.img.bottom <= cursorH
    ensures p.Some? ==>
      && p.value.img.right - p.value.img.left == p.value.box.right - p.value.box.left
      && p.value.img.bottom - p.value.img.top == p.value.box.bottom - p.value.box.top
    ensures p.Some? ==> p.value.img.left == p.value.box.left - x && p.value.img.top == p.value.box.top - y
    ensures p.Some? ==> forall c ::
      InSpan(c, p.value.box.left, p.value.box.right) <==> InSpan(c, 0, screenW) && InSpan(c, x, x + cursorW)
    ensures p.Some? ==> forall r ::
      InSpan(r, p.value.box.top, p.value.box.bottom) <==> InSpan(r, 0, screenH) && InSpan(r, y, y + cursorH)
  {
    var boxX1, boxY1 := Max(0, x), Max(0, y);
    var boxX2, boxY2 := Min(screenW, x + cursorW), Min(screenH, y + cursorH);
    var boxW, boxH := boxX2 - boxX1, boxY2 - boxY1;
    if boxW <= 0 || boxH <= 0 then
      None
    else
      var imgX1, imgY1 := Max(0, -x), Max(0, -y);
      Some(Placement(Rect(boxX1, boxY1, boxX2, boxY2), Rect(imgX1, imgY1, imgX1 + boxW, imgY1 + boxH)))
  }

  /** Blends two equally sized regions pixel by pixel. */
  function BlendRegion(bg: Frame, fg: Sprite): (r: Frame)
    requires Height(bg) == Height(fg) && Width(bg) == Width(fg)
    ensures Height(r) == Height(bg) && Width(r) == Width(bg)
    ensures forall i, j :: 0 <= i < Height(bg) && 0 <= j < Width(bg) ==> r[i][j] == BlendPixel(bg[i][j], fg[i][j])
  {
    seq(|bg|, i requires 0 <= i < |bg| =>
      seq(|bg[i]|, j requires 0 <= j < |bg[i]| => BlendPixel(bg[i][j], fg[i][j])))
  }

  /** Frame pixel `(i, j)` lies under the sprite placed with its top-left corner at `(x, y)`. */
  predicate Covers(cursor: Sprite, x: int, y: int, i: int, j: int) {
    InSpan(i, y, y + Height(cursor)) && InSpan(j, x, x + Width(cursor))
  }

  /** The clipping results the blend relies on: both rectangles inside their buffers and
      of the same size. */
  predicate Fits(screen: Frame, cursor: Sprite, p: Placement) {
    && 0 <= p.box.left <= p.box.right <= Width(screen) && 0 <= p.box.top <= p.box.bottom <= Height(screen)
    && 0 <= p.img.left <= p.img.right <= Width(cursor) && 0 <= p.img.top <= p.img.bottom <= Height(cursor)
    && p.img.right - p.img.left == p.box.right - p.box.left
    && p.img.bottom - p.img.top == p.box.bottom - p.box.top
  }

  /** The source's slice arithmetic: blend the sprite region `img` into the frame region `box`
      and assign the result back. */
  function BlendAt(screen: Frame, cursor: Sprite, p: Placement): (r: Frame)
    requires Fits(screen, cursor, p)
    ensures Height(r) == Height(screen) && Width(r) == Width(screen)
  {
    Paste(screen, p.box.top, p.box.left, BlendedRegion(screen, cursor, p))
  }

  /** Inside `box`, `BlendAt` blends with the sprite pixel at the same offset inside `img`;
      outside it leaves the frame alone. */
  lemma BlendAtPixel(screen: Frame, cursor: Sprite, p: Placement, i: int, j: int)
    requires Fits(screen, cursor, p)
    requires 0 <= i < Height(screen) && 0 <= j < Width(screen)
    ensures InSpan(i, p.box.top, p.box.bottom) && InSpan(j, p.box.left, p.box.right) ==>
      BlendAt(screen, cursor, p)[i][j]
        == BlendPixel(screen[i][j], cursor[i - p.box.top + p.img.top][j - p.box.left + p.img.left])
    ensures !(InSpan(i, p.box.top, p.box.bottom) && InSpan(j, p.box.left, p.box.right)) ==>
      BlendAt(screen, cursor, p)[i][j] == screen[i][j]
  {
    var blended := BlendedRegion(screen, cursor, p);
    assert BlendAt(screen, cursor, p) == Paste(screen, p.box.top, p.box.left, blended);
    PastedPixel(screen, p.box.top, p.box.left, blended, i, j);
    if InSpan(i, p.box.top, p.box.bottom) && InSpan(j, p.box.left, p.box.right) {
      BlendedRegionPixel(screen, cursor, p, i, j);
    }
  }

  /** The blended region before it is assigned back into the frame. */
  function BlendedRegion(screen: Frame, cursor: Sprite, p: Placement): (r: Frame)
    requires Fits(screen, cursor, p)
    ensures Height(r) == p.box.bottom - p.box.top
    ensures Height(r) > 0 ==> Width(r) == p.box.right - p.box.left
  {
    var cursorRoi := Crop(cursor, p.img.top, p.img.bottom, p.img.left, p.img.right);
    var screenRoi := Crop(screen, p.box.top, p.box.bottom, p.box.left, p.box.right);
    BlendRegion(screenRoi, cursorRoi)
  }

  /** One pixel of the blended region, addressed by its frame coordinates `(i, j)`. */
  lemma BlendedRegionPixel(screen: Frame, cursor: Sprite, p: Placement, i: int, j: int)
    requires Fits(screen, cursor, p)
    requires InSpan(i, p.box.top, p.box.bottom) && InSpan(j, p.box.left, p.box.right)
    ensures BlendedRegion(screen, cursor, p)[i - p.box.top][j - p.box.left]
      == BlendPixel(screen[i][j], cursor[i - p.box.top + p.img.top][j - p.box.left + p.img.left])
  {
    var u, v := i - p.box.top, j - p.box.left;
    var cursorRoi := Crop(cursor, p.img.top, p.img.bottom, p.img.left, p.img.right);
    var screenRoi := Crop(screen, p.box.top, p.box.bottom, p.box.left, p.box.right);
    assert BlendedRegion(screen, cursor, p) == BlendRegion(screenRoi, cursorRoi);
    CroppedPixel(screen, p.box.top, p.box.bottom, p.box.left, p.box.right, u, v);
    CroppedPixel(cursor, p.img.top, p.img.bottom, p.img.left, p.img.right, u, v);
    assert p.box.top + u == i && p.box.left + v == j;
    assert p.img.top + u == i - p.box.top + p.img.top && p.img.left + v == j - p.box.left + p.img.left;
    assert screenRoi[u][v] == screen[i][j];
    assert BlendRegion(screenRoi, cursorRoi)[u][v] == BlendPixel(screenRoi[u][v], cursorRoi[u][v]);
  }

  /** One pixel of `Crop`. */
  lemma CroppedPixel<T>(g: Image<T>, top: int, bottom: int, left: int, right: int, u: int, v: int)
    requires 0 <= top <= bottom <= Height(g)
    requires 0 <= left <= right <= Width(g)
    requires 0 <= u < bottom - top && 0 <= v < right - left
    ensures Crop(g, top, bottom, left, right)[u][v] == g[top + u][left + v]
  {
  }

  /** One pixel of `Paste`, as a lemma so that callers need not unfold the whole buffer. */
  lemma PastedPixel(g: Frame, top: int, left: int, patch: Frame, i: int, j: int)
    requires 0 <= top && top + Height(patch) <= Height(g)
    requires 0 <= left && left + Width(patch) <= Width(g)
    requires 0 <= i < Height(g) && 0 <= j < Width(g)
    ensures Paste(g, top, left, patch)[i][j]
      == if top <= i < top + Height(patch) && left <= j < left + Width(patch) then patch[i - top][j - left] else g[i][j]
  {
  }

  /** The frame after overlaying `cursor` with its top-left corner at `(x, y)`, for any
      integers `x` and `y`. Every frame pixel under the sprite is blended with the sprite
      pixel at the same offset from the corner; every other pixel keeps its value. */
  function OverlayImageAlpha(screen: Frame, cursor: Sprite, x: int, y: int): (r: Frame)
    ensures Height(r) == Height(screen) && Width(r) == Width(screen)
    ensures forall i, j :: 0 <= i < Height(screen) && 0 <= j < Width(screen) ==>
      r[i][j] == if Covers(cursor, x, y, i, j) then BlendPixel(screen[i][j], cursor[i - y][j - x]) else screen[i][j]
  {
    match Clip(Width(screen), Height(screen), Width(cursor), Height(cursor), x, y)
    case None => screen
    case Some(p) =>
      OverlayPlaced(screen, cursor, x, y, p);
      BlendAt(screen, cursor, p)
  }

  /** With the placement `Clip` computes, `BlendAt` blends exactly the pixels under the sprite. */
  lemma OverlayPlaced(screen: Frame, cursor: Sprite, x: int, y: int, p: Placement)
    requires Clip(Width(screen), Height(screen), Width(cursor), Height(cursor), x, y) == Some(p)
    ensures Fits(screen, cursor, p)
    ensures forall i, j :: 0 <= i < Height(screen) && 0 <= j < Width(screen) ==>
      BlendAt(screen, cursor, p)[i][j]
        == if Covers(cursor, x, y, i, j) then BlendPixel(screen[i][j], cursor[i - y][j - x]) else screen[i][j]
  {
    assert Aligned(screen, cursor, x, y, p);
    forall i, j | 0 <= i < Height(screen) && 0 <= j < Width(screen)
      ensures BlendAt(screen, cursor, p)[i][j]
        == if Covers(cursor, x, y, i, j) then BlendPixel(screen[i][j], cursor[i - y][j - x]) else screen[i][j]
    {
      OverlayPlacedPixel(screen, cursor, x, y, p, i, j);
    }
  }

  /** The placement puts sprite pixel `(i - y, j - x)` under frame pixel `(i, j)`, and its
      `box` is exactly the set of frame pixels the sprite covers. */
  ghost predicate Aligned(screen: Frame, cursor: Sprite, x: int, y: int, p: Placement) {
    && Fits(screen, cursor, p)
    && p.img.left == p.box.left - x && p.img.top == p.box.top - y
    && (forall c :: InSpan(c, p.box.left, p.box.right) <==> InSpan(c, 0, Width(screen)) && InSpan(c, x, x + Width(cursor)))
    && (forall r :: InSpan(r, p.box.top, p.box.bottom) <==> InSpan(r, 0, Height(screen)) && InSpan(r, y, y + Height(cursor)))
  }

  /** One pixel of `OverlayPlaced`. */
  lemma OverlayPlacedPixel(screen: Frame, cursor: Sprite, x: int, y: int, p: Placement, i: int, j: int)
    requires Aligned(screen, cursor, x, y, p)
    requires 0 <= i < Height(screen) && 0 <= j < Width(screen)
    ensures BlendAt(screen, cursor, p)[i][j]
      == if Covers(cursor, x, y, i, j) then BlendPixel(screen[i][j], cursor[i - y][j - x]) else screen[i][j]
  {
    BlendAtPixel(screen, cursor, p, i, j);
    AlignedPixel(screen, cursor, x, y, p, i, j, BlendAt(screen, cursor, p)[i][j]);
  }

  /** `OverlayPlacedPixel` for any value `v` that follows `BlendAt`'s rule at `(i, j)`. */
  lemma AlignedPixel(screen: Frame, cursor: Sprite, x: int, y: int, p: Placement, i: int, j: int, v: Pixel)
    requires Aligned(screen, cursor, x, y, p)
    requires 0 <= i < Height(screen) && 0 <= j < Width(screen)
    requires InSpan(i, p.box.top, p.box.bottom) && InSpan(j, p.box.left, p.box.right) ==>
      v == BlendPixel(screen[i][j], cursor[i - p.box.top + p.img.top][j - p.box.left + p.img.left])
    requires !(InSpan(i, p.box.top, p.box.bottom) && InSpan(j, p.box.left, p.box.right)) ==> v == screen[i][j]
    ensures v == if Covers(cursor, x, y, i, j) then BlendPixel(screen[i][j], cursor[i - y][j - x]) else screen[i][j]
  {
    assert InSpan(j, p.box.left, p.box.right) <==> InSpan(j, x, x + Width(cursor)) by {
      assert InSpan(j, p.box.left, p.box.right) <==> InSpan(j, 0, Width(screen)) && InSpan(j, x, x + Width(cursor));
    }
    assert InSpan(i, p.box.top, p.box.bottom) <==> InSpan(i, y, y + Height(cursor)) by {
      assert InSpan(i, p.box.top, p.box.bottom) <==> InSpan(i, 0, Height(screen)) && InSpan(i, y, y + Height(cursor));
    }
    if Covers(cursor, x, y, i, j) {
      assert i - p.box.top + p.img.top == i - y && j - p.box.left + p.img.left == j - x;
    }
  }
}

=== FILE: overlay_properties.dfy ===
/** What the compositor promises its caller: off-frame positions and transparent sprites
    change nothing, opaque sprites replace, and only the clipped box is ever touched. */
module OverlayProperties {
  import opened Results
  import opened Pixels
  import opened Images
  import opened Overlay

  /** Two frames of the same shape that agree on every pixel are the same frame. */
  lemma SameFrame(a: Frame, b: Frame)
    requires Height(a) == Height(b) && Width(a) == Width(b)
    requires forall i, j :: 0 <= i < Height(a) && 0 <= j < Width(a) ==> a[i][j] == b[i][j]
    ensures a == b
  {
    forall i | 0 <= i < |a|
      ensures a[i] == b[i]
    {
      assert |a[i]| == Width(a) && |b[i]| == Width(b);
    }
  }

  /** A sprite that lies entirely left of, right of, above or below the frame leaves the frame
      identical, whatever its pixels. */
  lemma OffFrameLeavesFrameUnchanged(screen: Frame, cursor: Sprite, x: int, y: int)
    requires x >= Width(screen) || x + Width(cursor) <= 0 || y >= Height(screen) || y + Height(cursor) <= 0
    ensures Clip(Width(screen), Height(screen), Width(cursor), Height(cursor), x, y).None?
    ensures OverlayImageAlpha(screen, cursor, x, y) == screen
  {
    var r := OverlayImageAlpha(screen, cursor, x, y);
    forall i, j | 0 <= i < Height(screen) && 0 <= j < Width(screen)
      ensures r[i][j] == screen[i][j]
    {
      assert !Covers(cursor, x, y, i, j);
    }
    SameFrame(r, screen);
  }

  /** The frame changes only inside the box `Clip` computes, and inside that box frame pixel
      `(i, j)` is blended with the sprite pixel at the same offset in the sprite rectangle. */
  lemma OverlayConfinedToClipBox(screen: Frame, cursor: Sprite, x: int, y: int, i: int, j: int)
    requires 0 <= i < Height(screen) && 0 <= j < Width(screen)
    ensures var p := Clip(Width(screen), Height(screen), Width(cursor), Height(cursor), x, y);
      var r := OverlayImageAlpha(screen, cursor, x, y);
      if p.Some? && InSpan(i, p.value.box.top, p.value.box.bottom) && InSpan(j, p.value.box.left, p.value.box.right)
      then r[i][j] == BlendPixel(screen[i][j],
                                 cursor[i - p.value.box.top + p.value.img.top][j - p.value.box.left + p.value.img.left])
      else r[i][j] == screen[i][j]
  {
    var r := OverlayImageAlpha(screen, cursor, x, y);
    ConfinedPixel(screen, cursor, x, y, i, j, r[i][j]);
  }

  /** `OverlayConfinedToClipBox` for any value `v` that follows the covering rule at `(i, j)`. */
  lemma ConfinedPixel(screen: Frame, cursor: Sprite, x: int, y: int, i: int, j: int, v: Pixel)
    requires 0 <= i < Height(screen) && 0 <= j < Width(screen)
    requires v == if Covers(cursor, x, y, i, j) then BlendPixel(screen[i][j], cursor[i - y][j - x]) else screen[i][j]
    ensures var p := Clip(Width(screen), Height(screen), Width(cursor), Height(cursor), x, y);
      if p.Some? && InSpan(i, p.value.box.top, p.value.box.bottom) && InSpan(j, p.value.box.left, p.value.box.right)
      then v == BlendPixel(screen[i][j],
                           cursor[i - p.value.box.top + p.value.img.top][j - p.value.box.left + p.value.img.left])
      else v == screen[i][j]
  {
    var p := Clip(Width(screen), Height(screen), Width(cursor), Height(cursor), x, y);
    if p.Some? {
      var b, a := p.value.box, p.value.img;
      assert InSpan(j, b.left, b.right) <==> InSpan(j, 0, Width(screen)) && InSpan(j, x, x + Width(cursor));
      assert InSpan(i, b.top, b.bottom) <==> InSpan(i, 0, Height(screen)) && InSpan(i, y, y + Height(cursor));
      assert i - b.top + a.top == i - y && j - b.left + a.left == j - x;
    } else {
      assert !(InSpan(j, 0, Width(screen)) && InSpan(j, x, x + Width(cursor)))
          || !(InSpan(i, 0, Height(screen)) && InSpan(i, y, y + Height(cursor)));
    }
  }

  /** A sprite whose alpha is 0 everywhere leaves the frame identical at every position. */
  lemma TransparentSpriteLeavesFrameUnchanged(screen: Frame, cursor: Sprite, x: int, y: int)
    requires forall i, j :: 0 <= i < Height(cursor) && 0 <= j < Width(cursor) ==> cursor[i][j].a == 0
    ensures OverlayImageAlpha(screen, cursor, x, y) == screen
  {
    var r := OverlayImageAlpha(screen, cursor, x, y);
    forall i, j | 0 <= i < Height(screen) && 0 <= j < Width(screen)
      ensures r[i][j] == screen[i][j]
    {
      if Covers(cursor, x, y, i, j) {
        assert cursor[i - y][j - x].a == 0;
      }
    }
    SameFrame(r, screen);
  }

  /** A sprite whose alpha is 255 everywhere replaces every covered pixel by the sprite's colour
      and leaves the rest of the frame alone. */
  lemma OpaqueSpriteReplacesCoveredPixels(screen: Frame, cursor: Sprite, x: int, y: int)
    requires forall i, j :: 0 <= i < Height(cursor) && 0 <= j < Width(cursor) ==> cursor[i][j].a == 255
    ensures forall i, j :: 0 <= i < Height(screen) && 0 <= j < Width(screen) ==>
      OverlayImageAlpha(screen, cursor, x, y)[i][j]
        == if Covers(cursor, x, y, i, j) then Colour(cursor[i - y][j - x]) else screen[i][j]
  {
    var r := OverlayImageAlpha(screen, cursor, x, y);
    forall i, j | 0 <= i < Height(screen) && 0 <= j < Width(screen)
      ensures r[i][j] == if Covers(cursor, x, y, i, j) then Colour(cursor[i - y][j - x]) else screen[i][j]
    {
      if Covers(cursor, x, y, i, j) {
        assert cursor[i - y][j - x].a == 255;
      }
    }
  }

  /** A 32 by 32 sprite at `(-20, 50)` on a 100 by 100 frame: frame columns `[0, 12)` and rows
      `[50, 82)` receive sprite columns `[20, 32)` and rows `[0, 32)`. */
  lemma ClipStraddlingLeftEdge()
    ensures Clip(100, 100, 32, 32, -20, 50) == Some(Placement(Rect(0, 50, 12, 82), Rect(20, 0, 32, 32)))
  {
  }

  /** A 32 by 32 sprite at `(90, 90)` on a 100 by 100 frame: only its top-left 10 by 10 corner
      lands, on frame rows and columns `[90, 100)`. */
  lemma ClipBottomRightCorner()
    ensures Clip(100, 100, 32, 32, 90, 90) == Some(Placement(Rect(90, 90, 100, 100), Rect(0, 0, 10, 10)))
  {
  }

  /** A fully opaque red 32 by 32 sprite at `(90, 90)` on a 100 by 100 frame turns exactly the
      pixels `[90:100, 90:100]` red and leaves every other pixel as it was. */
  lemma OpaqueRedCorner(screen: Frame, cursor: Sprite)
    requires Height(screen) == 100 && Width(screen) == 100
    requires Height(cursor) == 32 && Width(cursor) == 32
    requires forall i, j :: 0 <= i < 32 && 0 <= j < 32 ==> cursor[i][j] == Bgra(0, 0, 255, 255)
    ensures forall i, j :: 0 <= i < 100 && 0 <= j < 100 ==>
      OverlayImageAlpha(screen, cursor, 90, 90)[i][j] == if 90 <= i && 90 <= j then Bgr(0, 0, 255) else screen[i][j]
  {
    OpaqueSpriteReplacesCoveredPixels(screen, cursor, 90, 90);
  }
}

=== FILE: pixels.dfy ===
/** Pixels of the captured frame and of the cursor sprite, and the per-channel alpha blend. */
module Pixels {

  /** One channel of a `uint8` image. */
  type Byte = v: int | 0 <= v < 256

  /** A frame pixel, in OpenCV's blue, green, red channel order. */
  datatype Pixel = Bgr(b: Byte, g: Byte, r: Byte)

  /** A sprite pixel: the frame's three colour channels, in the same order, followed by alpha
      (0 is fully transparent, 255 fully opaque). */
  datatype SpritePixel = Bgra(b: Byte, g: Byte, r: Byte, a: Byte)

  /** The colour part of a sprite pixel (the `[..., :3]` slice). */
  function Colour(s: SpritePixel): Pixel {
    Bgr(s.b, s.g, s.r)
  }

  function Min(a: int, b: int): int {
    if a <= b then a else b
  }

  function Max(a: int, b: int): int {
    if a <= b then b else a
  }

  /** `k * d` is non-negative for non-negative factors. */
  lemma ProductNonNegative(k: int, d: int)
    requires 0 <= k && 0 <= d
    ensures 0 <= k * d
  {
  }

  /** The weighted sum behind the blend never leaves the range spanned by its two inputs. */
  lemma WeightedSumBounds(bg: Byte, fg: Byte, a: Byte)
    ensures 255 * Min(bg, fg) <= (255 - a) * bg + a * fg <= 255 * Max(bg, fg)
  {
    var n := (255 - a) * bg + a * fg;
    if bg <= fg {
      assert n - 255 * bg == a * (fg - bg);
      assert 255 * fg - n == (255 - a) * (fg - bg);
      ProductNonNegative(a, fg - bg);
      ProductNonNegative(255 - a, fg - bg);
    } else {
      assert n - 255 * fg == (255 - a) * (bg - fg);
      assert 255 * bg - n == a * (bg - fg);
      ProductNonNegative(a, bg - fg);
      ProductNonNegative(255 - a, bg - fg);
    }
  }

  /** `n / 255` stays between `lo` and `hi` when `n` lies between `255 * lo` and `255 * hi`. */
  lemma QuotientBounds(n: int, lo: int, hi: int)
    requires 255 * lo <= n <= 255 * hi
    ensures lo <= n / 255 <= hi
  {
  }

  /** `v` is `(1 - a) * bg + a * fg` with `a = alpha / 255`, computed exactly and truncated:
      the largest integer whose 255-fold does not exceed `(255 - alpha) * bg + alpha * fg`. */
  predicate IsTruncatedBlend(bg: int, fg: int, alpha: int, v: int) {
    255 * v <= (255 - alpha) * bg + alpha * fg < 255 * v + 255
  }

  /** One channel of `(1 - a) * bg + a * fg` with `a = alpha / 255`, truncated to `uint8`.
      The exact rational value is truncated; both ends of the alpha range are exact. */
  function Blend(bg: Byte, fg: Byte, alpha: Byte): (v: Byte)
    ensures IsTruncatedBlend(bg, fg, alpha, v)
    ensures alpha == 0 ==> v == bg
    ensures alpha == 255 ==> v == fg
    ensures Min(bg, fg) <= v <= Max(bg, fg)
  {
    WeightedSumBounds(bg, fg, alpha);
    QuotientBounds((255 - alpha) * bg + alpha * fg, Min(bg, fg), Max(bg, fg));
    ((255 - alpha) * bg + alpha * fg) / 255
  }

  /** Raising alpha moves the blended value towards the sprite's value, never away from it. */
  lemma BlendMonotoneInAlpha(bg: Byte, fg: Byte, a1: Byte, a2: Byte)
    requires a1 <= a2
    ensures bg <= fg ==> Blend(bg, fg, a1) <= Blend(bg, fg, a2)
    ensures fg <= bg ==> Blend(bg, fg, a2) <= Blend(bg, fg, a1)
  {
    var n1, n2 := (255 - a1) * bg + a1 * fg, (255 - a2) * bg + a2 * fg;
    assert n2 - n1 == (a2 - a1) * (fg - bg);
    if bg <= fg {
      ProductNonNegative(a2 - a1, fg - bg);
    } else {
      ProductNonNegative(a2 - a1, bg - fg);
      assert n1 - n2 == (a2 - a1) * (bg - fg);
    }
  }

  /** Blending `fg` over `bg` with alpha `a` is blending `bg` over `fg` with alpha `255 - a`. */
  lemma BlendSymmetric(bg: Byte, fg: Byte, alpha: Byte)
    ensures Blend(bg, fg, alpha) == Blend(fg, bg, 255 - alpha)
  {
    assert (255 - alpha) * bg + alpha * fg == (255 - (255 - alpha)) * fg + (255 - alpha) * bg;
  }

  /** Blends one sprite pixel over one frame pixel, channel by channel, each channel with the
      sprite's single alpha. */
  function BlendPixel(bg: Pixel, fg: SpritePixel): (p: Pixel)
    ensures IsTruncatedBlend(bg.b, fg.b, fg.a, p.b)
    ensures IsTruncatedBlend(bg.g, fg.g, fg.a, p.g)
    ensures IsTruncatedBlend(bg.r, fg.r, fg.a, p.r)
    ensures fg.a == 0 ==> p == bg
    ensures fg.a == 255 ==> p == Colour(fg)
    ensures Min(bg.b, fg.b) <= p.b <= Max(bg.b, fg.b)
    ensures Min(bg.g, fg.g) <= p.g <= Max(bg.g, fg.g)
    ensures Min(bg.r, fg.r) <= p.r <= Max(bg.r, fg.r)
  {
    Bgr(Blend(bg.b, fg.b, fg.a), Blend(bg.g, fg.g, fg.a), Blend(bg.r, fg.r, fg.a))
  }

  /** The truncated blend is unique: any value meeting `IsTruncatedBlend` is `Blend`'s. */
  lemma TruncatedBlendUnique(bg: Byte, fg: Byte, alpha: Byte, v: int)
    requires IsTruncatedBlend(bg, fg, alpha, v)
    ensures v == Blend(bg, fg, alpha)
  {
    var w := Blend(bg, fg, alpha);
    assert 255 * v < 255 * w + 255 && 255 * w < 255 * v + 255;
  }
}

=== FILE: recording.dfy ===
/** The recording loop and the program around it. The loop is a state machine driven by a
    script of ticks: each tick is what one pass of `while True` observes from its collaborators
    (captured frame, pointer, key, stop flag, window state, elapsed time), or a keyboard
    interrupt arriving before the pass starts. The model's output is the sequence of actions the
    program performs on its collaborators. */
module Recording {
  import opened Results
  import opened Pixels
  import opened Images
  import opened Overlay
  import opened Setup
  import opened Codec

  /** What one pass of the loop observes: the captured frame (already converted to BGR), the
      pointer in screen coordinates, the key code `waitKey(1)` returns (-1 for none), the F5 stop
      flag, whether the preview window is still visible, and the time the pass took before the
      pacing step, in integer time units. */
  datatype Capture = Capture(frame: Frame, pointer: Point, key: int, stopFlag: bool, windowVisible: bool, elapsed: int)

  /** One step of the loop: a pass, a keyboard interrupt arriving before the pass starts, or
      another exception raised by a collaborator before the pass writes its frame (the screen
      grab failing, say). */
  datatype Tick = Cycle(capture: Capture) | Interrupt | Fault

  /** The effects the program has on its collaborators, in the order it has them. */
  datatype Action =
    | OpenWriter(path: string, codec: int, width: nat, height: nat)
    | OpenPreview(width: nat, height: nat)
    | WriteFrame(frame: Frame)
    | ShowFrame(frame: Frame)
    | Sleep(duration: nat)
    | ReleaseWriter
    | CloseWindows
    | StopListener

  /** The `finally` block: release the writer, destroy the windows, stop the key listener. */
  function Cleanup(): seq<Action> {
    [ReleaseWriter, CloseWindows, StopListener]
  }

  /** What the loop works with once setup has succeeded: the monitor, the sprite if one was
      loaded, and the target frame period. */
  datatype Session = Session(monitor: Monitor, cursor: Option<Sprite>, period: int)

  /** `key & 0xFF` for Python's unbounded integers: the residue of `key` modulo 256, also for
      negative keys. */
  function LowByte(key: int): (b: int)
    ensures 0 <= b < 256
    ensures (key - b) % 256 == 0
  {
    key % 256
  }

  /** `waitKey(1) & 0xFF == ord('q')`; Python's `&` binds tighter than `==`. */
  predicate QuitPressed(key: int) {
    LowByte(key) == 'q' as int
  }

  /** No key (-1) does not quit, `q` does, and bits above the low byte are ignored. */
  lemma QuitKeyCodes(key: int, k: int)
    ensures !QuitPressed(-1)
    ensures QuitPressed('q' as int)
    ensures QuitPressed(key + 256 * k) <==> QuitPressed(key)
  {
    assert (key + 256 * k) % 256 == key % 256;
  }

  /** The three stop conditions tested after each frame is written and shown. */
  predicate StopRequested(c: Capture) {
    QuitPressed(c.key) || c.stopFlag || !c.windowVisible
  }

  /** A tick ends the loop: an interrupt, an exception, or a cycle whose stop test succeeds. */
  predicate Stops(t: Tick) {
    !t.Cycle? || StopRequested(t.capture)
  }

  /** The pacing step: sleep for `period - elapsed` when that is positive, otherwise not at all. */
  function Pace(period: int, elapsed: int): (d: Option<nat>)
    ensures d.Some? <==> elapsed < period
    ensures d.Some? ==> 0 < d.value && elapsed + d.value == period
  {
    if period - elapsed > 0 then Some(period - elapsed) else None
  }

  /** The time from the start of one pass to the start of the next is the longer of the period
      and the pass itself: the pacing step never makes up for an overrun. */
  lemma CycleLength(period: int, elapsed: int)
    ensures elapsed + (match Pace(period, elapsed) case Some(d) => d case None => 0) == Max(period, elapsed)
  {
  }

  function SleepActions(period: int, elapsed: int): seq<Action> {
    match Pace(period, elapsed)
    case Some(d) => [Sleep(d)]
    case None => []
  }

  /** The frame a pass writes: the captured frame with the sprite, if any, drawn at the
      pointer's frame coordinates (the pointer minus the monitor's origin). Pixels under the
      sprite are blended with the sprite pixel at the same offset from the pointer; all others
      are the capture's. */
  function Composite(s: Session, c: Capture): (f: Frame)
    ensures Height(f) == Height(c.frame) && Width(f) == Width(c.frame)
    ensures s.cursor.None? ==> f == c.frame
    ensures s.cursor.Some? ==> DrawnAt(c.frame, s.cursor.value, ToFrame(c.pointer, s.monitor).x, ToFrame(c.pointer, s.monitor).y, f)
    ensures forall i, j :: 0 <= i < Height(f) && 0 <= j < Width(f) && f[i][j] != c.frame[i][j] ==>
      s.cursor.Some? && Covers(s.cursor.value, ToFrame(c.pointer, s.monitor).x, ToFrame(c.pointer, s.monitor).y, i, j)
  {
    match s.cursor
    case None => c.frame
    case Some(sprite) =>
      var q := ToFrame(c.pointer, s.monitor);
      var f := OverlayImageAlpha(c.frame, sprite, q.x, q.y);
      OverlaidAt(c.frame, sprite, q.x, q.y, f);
      DrawnOnlyUnderSprite(c.frame, sprite, q.x, q.y, f);
      f
  }

  /** `f` is `frame` with `sprite` drawn with its top-left corner at `(x, y)`: it has the
      frame's size, each pixel under the sprite is blended with the sprite pixel at the same
      offset from the corner, and every other pixel is the frame's. */
  predicate DrawnAt(frame: Frame, sprite: Sprite, x: int, y: int, f: Frame) {
    && Height(f) == Height(frame) && Width(f) == Width(frame)
    && forall i, j :: 0 <= i < Height(f) && 0 <= j < Width(f) ==>
         f[i][j] == if Covers(sprite, x, y, i, j) then BlendPixel(frame[i][j], sprite[i - y][j - x]) else frame[i][j]
  }

  /** `OverlayImageAlpha`'s result, for a frame already computed. */
  lemma OverlaidAt(frame: Frame, sprite: Sprite, x: int, y: int, f: Frame)
    requires f == OverlayImageAlpha(frame, sprite, x, y)
    ensures DrawnAt(frame, sprite, x, y, f)
  {
  }

  /** A frame drawn over differs from the original only under the sprite. */
  lemma DrawnOnlyUnderSprite(frame: Frame, sprite: Sprite, x: int, y: int, f: Frame)
    requires DrawnAt(frame, sprite, x, y, f)
    ensures forall i, j :: 0 <= i < Height(f) && 0 <= j < Width(f) && f[i][j] != frame[i][j] ==> Covers(sprite, x, y, i, j)
  {
  }

  /** The frames written, in order. */
  function Writes(log: seq<Action>): seq<Frame> {
    if |log| == 0 then [] else (if log[0].WriteFrame? then [log[0].frame] else []) + Writes(log[1..])
  }

  /** The frames shown in the preview, in order. */
  function Shows(log: seq<Action>): seq<Frame> {
    if |log| == 0 then [] else (if log[0].ShowFrame? then [log[0].frame] else []) + Shows(log[1..])
  }

  /** The sleep durations, in order. */
  function Sleeps(log: seq<Action>): seq<nat> {
    if |log| == 0 then [] else (if log[0].Sleep? then [log[0].duration] else []) + Sleeps(log[1..])
  }

  /** How often `x` occurs in `s`. */
  function Count<T(==)>(s: seq<T>, x: T): nat {
    if |s| == 0 then 0 else (if s[0] == x then 1 else 0) + Count(s[1..], x)
  }

  /** The projections of a log distribute over concatenation. */
  lemma LogConcat(a: seq<Action>, b: seq<Action>)
    ensures Writes(a + b) == Writes(a) + Writes(b)
    ensures Shows(a + b) == Shows(a) + Shows(b)
    ensures Sleeps(a + b) == Sleeps(a) + Sleeps(b)
    ensures forall x :: Count(a + b, x) == Count(a, x) + Count(b, x)
  {
    WritesConcat(a, b);
    ShowsConcat(a, b);
    SleepsConcat(a, b);
    forall x {
      CountConcat(a, b, x);
    }
  }

  lemma {:induction false} WritesConcat(a: seq<Action>, b: seq<Action>)
    ensures Writes(a + b) == Writes(a) + Writes(b)
  {
    if |a| == 0 {
      assert a + b == b;
    } else {
      var h := if a[0].WriteFrame? then [a[0].frame] else [];
      assert (a + b)[0] == a[0] && (a + b)[1..] == a[1..] + b;
      assert Writes(a + b) == h + Writes(a[1..] + b);
      WritesConcat(a[1..], b);
      assert Writes(a) == h + Writes(a[1..]);
    }
  }

  lemma {:induction false} ShowsConcat(a: seq<Action>, b: seq<Action>)
    ensures Shows(a + b) == Shows(a) + Shows(b)
  {
    if |a| == 0 {
      assert a + b == b;
    } else {
      var h := if a[0].ShowFrame? then [a[0].frame] else [];
      assert (a + b)[0] == a[0] && (a + b)[1..] == a[1..] + b;
      assert Shows(a + b) == h + Shows(a[1..] + b);
      ShowsConcat(a[1..], b);
      assert Shows(a) == h + Shows(a[1..]);
    }
  }

  lemma {:induction false} SleepsConcat(a: seq<Action>, b: seq<Action>)
    ensures Sleeps(a + b) == Sleeps(a) + Sleeps(b)
  {
    if |a| == 0 {
      assert a + b == b;
    } else {
      var h := if a[0].Sleep? then [a[0].duration] else [];
      assert (a + b)[0] == a[0] && (a + b)[1..] == a[1..] + b;
      assert Sleeps(a + b) == h + Sleeps(a[1..] + b);
      SleepsConcat(a[1..], b);
      assert Sleeps(a) == h + Sleeps(a[1..]);
    }
  }

  lemma {:induction false} CountConcat<T>(a: seq<T>, b: seq<T>, x: T)
    ensures Count(a + b, x) == Count(a, x) + Count(b, x)
  {
    if |a| == 0 {
      assert a + b == b;
    } else {
      assert (a + b)[1..] == a[1..] + b;
      CountConcat(a[1..], b, x);
    }
  }

  /** The index of the first tick that ends the loop, or `|ticks|` when none does. */
  function FirstStop(ticks: seq<Tick>): (k: nat)
    ensures k <= |ticks|
    ensures forall i :: 0 <= i < k ==> !Stops(ticks[i])
    ensures k < |ticks| ==> Stops(ticks[k])
  {
    if |ticks| == 0 || Stops(ticks[0]) then 0 else 1 + FirstStop(ticks[1..])
  }

  /** The number of passes that write a frame: every pass up to the first stopping one, and that
      one too unless it is an interrupt. */
  function CyclesWritten(ticks: seq<Tick>): (n: nat)
    ensures FirstStop(ticks) <= n <= |ticks|
  {
    var k := FirstStop(ticks);
    if k < |ticks| && ticks[k].Cycle? then k + 1 else k
  }

  /** The sleeps that the passes of `ticks` call for, in order: one of `period - elapsed` for
      each pass shorter than the period, none for the others. */
  function Pauses(period: int, ticks: seq<Tick>): (ds: seq<nat>)
    ensures |ds| <= |ticks|
    ensures forall i :: 0 <= i < |ds| ==> 0 < ds[i]
  {
    if |ticks| == 0 then [] else PauseOf(period, ticks[0]) + Pauses(period, ticks[1..])
  }

  /** The sleep one tick calls for, if any. */
  function PauseOf(period: int, t: Tick): (ds: seq<nat>)
    ensures |ds| <= 1
    ensures forall i :: 0 <= i < |ds| ==> 0 < ds[i]
  {
    match t
    case Interrupt => []
    case Fault => []
    case Cycle(c) => (match Pace(period, c.elapsed) case Some(d) => [d] case None => [])
  }

  /** How the `while True` loop was left, or that it is still running when the ticks run out. */
  datatype Exit = Broke | Interrupted | Raised | StillRunning

  datatype Trace = Trace(log: seq<Action>, exit: Exit)

  /** What the loop promises about the trace `t` it produces from `ticks`:
      - it runs on exactly when no tick stops it, and ends by interrupt (by exception) exactly
        when the first stopping tick is an interrupt (an exception);
      - its log is every full pass before the first stopping tick, in order, followed by the
        write and show of the stopping tick when that tick is a pass;
      - within the log, every pass is a write, then the show of the same frame, then at most
        one sleep;
      - it writes one frame per pass, the composited capture of that pass, including the pass
        whose stop test succeeds, and shows each frame it writes;
      - it sleeps exactly as the pacing rule asks for the passes that do not stop;
      - it never cleans up itself;
      - when it breaks, the last two things it did were writing and showing that pass's frame. */
  ghost predicate LoopContract(s: Session, ticks: seq<Tick>, t: Trace) {
    LoopExit(ticks, t) && LoopShape(s, ticks, t) && LoopEffects(s, ticks, t)
  }

  /** How the loop was left, in terms of the first stopping tick. */
  ghost predicate LoopExit(ticks: seq<Tick>, t: Trace) {
    var k := FirstStop(ticks);
    && (t.exit.StillRunning? <==> k == |ticks|)
    && (t.exit.Interrupted? <==> k < |ticks| && ticks[k].Interrupt?)
    && (t.exit.Raised? <==> k < |ticks| && ticks[k].Fault?)
  }

  /** The log as a whole: the full passes before the first stopping tick, then the stopping
      pass's write and show, in pass order. */
  ghost predicate LoopShape(s: Session, ticks: seq<Tick>, t: Trace) {
    && t.log == LoopLog(s, ticks)
    && PassOrder(t.log)
  }

  /** What the loop does on `ticks`, pass by pass: every full pass before the first stopping
      tick, then the write and show of that tick if it is a pass. */
  function LoopLog(s: Session, ticks: seq<Tick>): seq<Action> {
    var k := FirstStop(ticks);
    Passes(s, ticks[..k]) + (if k < |ticks| && ticks[k].Cycle? then Shown(Composite(s, ticks[k].capture)) else [])
  }

  /** The log's projections: frames written and shown, sleeps, no cleanup, and how a break ends. */
  ghost predicate LoopEffects(s: Session, ticks: seq<Tick>, t: Trace) {
    var k := FirstStop(ticks);
    && |Writes(t.log)| == CyclesWritten(ticks)
    && (forall i :: 0 <= i < |Writes(t.log)| ==> ticks[i].Cycle? && Writes(t.log)[i] == Composite(s, ticks[i].capture))
    && Shows(t.log) == Writes(t.log)
    && Sleeps(t.log) == Pauses(s.period, ticks[..k])
    && Count(t.log, ReleaseWriter) == 0 && Count(t.log, CloseWindows) == 0 && Count(t.log, StopListener) == 0
    && (t.exit.Broke? ==>
          && k < |ticks| && ticks[k].Cycle? && |t.log| >= 2
          && t.log[|t.log| - 2..] == [WriteFrame(Composite(s, ticks[k].capture)), ShowFrame(Composite(s, ticks[k].capture))])
  }

  /** Writing and showing one frame. */
  function Shown(f: Frame): seq<Action> {
    [WriteFrame(f), ShowFrame(f)]
  }

  /** What one full pass that does not stop does: write and show its composited frame, then
      sleep as the pacing rule asks. */
  function PassLog(s: Session, c: Capture): seq<Action> {
    Shown(Composite(s, c)) + SleepActions(s.period, c.elapsed)
  }

  /** The full passes of `ticks`, one after another; ticks that are not passes do nothing. */
  function Passes(s: Session, ticks: seq<Tick>): seq<Action> {
    if |ticks| == 0 then []
    else (match ticks[0] case Cycle(c) => PassLog(s, c) case _ => []) + Passes(s, ticks[1..])
  }

  /** The actions that may follow one another inside the loop: a write is followed by the show
      of the same frame, a show by the next write or a sleep, a sleep by the next write. */
  predicate Follows(x: Action, y: Action) {
    match x
    case WriteFrame(f) => y == ShowFrame(f)
    case ShowFrame(_) => y.WriteFrame? || y.Sleep?
    case Sleep(_) => y.WriteFrame?
    case _ => false
  }

  /** A log made of whole passes and a final write-and-show: only writes, shows and sleeps,
      starting with a write, never ending on a write, and every step allowed by `Follows`. */
  ghost predicate PassOrder(log: seq<Action>) {
    && (forall n :: 0 <= n < |log| ==> log[n].WriteFrame? || log[n].ShowFrame? || log[n].Sleep?)
    && (|log| > 0 ==> log[0].WriteFrame? && !log[|log| - 1].WriteFrame?)
    && (forall n :: 0 <= n < |log| - 1 ==> Follows(log[n], log[n + 1]))
  }

  /** Logs in pass order stay in pass order when one follows the other. */
  lemma OrderConcat(a: seq<Action>, b: seq<Action>)
    requires PassOrder(a) && PassOrder(b)
    ensures PassOrder(a + b)
  {
    var ab := a + b;
    forall n | 0 <= n < |ab| - 1
      ensures Follows(ab[n], ab[n + 1])
    {
      if n < |a| - 1 {
        assert ab[n] == a[n] && ab[n + 1] == a[n + 1];
      } else if n == |a| - 1 {
        assert ab[n] == a[n] && ab[n + 1] == b[0];
      } else {
        assert ab[n] == b[n - |a|] && ab[n + 1] == b[n - |a| + 1];
      }
    }
  }

  /** One pass, and the write-and-show of a stopping pass, are in pass order. */
  lemma PassLogOrdered(s: Session, c: Capture)
    ensures PassOrder(Shown(Composite(s, c)))
    ensures PassOrder(PassLog(s, c))
  {
  }

  /** The `while True` loop: capture, overlay, write, show, test the stop conditions, pace. */
  function Loop(s: Session, ticks: seq<Tick>): (t: Trace)
    ensures LoopContract(s, ticks, t)
    decreases |ticks|, 1
  {
    if |ticks| == 0 then Trace([], StillRunning)
    else
      match ticks[0]
      case Interrupt => Trace([], Interrupted)
      case Fault => Trace([], Raised)
      case Cycle(c) =>
        var f := Composite(s, c);
        var shown := Shown(f);
        if StopRequested(c) then
          StoppingPass(s, ticks);
          Trace(shown, Broke)
        else
          LoopPass(s, ticks);
          Trace(shown + SleepActions(s.period, c.elapsed) + Loop(s, ticks[1..]).log, Loop(s, ticks[1..]).exit)
  }

  /** A pass whose stop test succeeds ends the loop after its write and show. */
  lemma StoppingPass(s: Session, ticks: seq<Tick>)
    requires |ticks| > 0 && ticks[0].Cycle? && StopRequested(ticks[0].capture)
    ensures LoopContract(s, ticks, Trace(Shown(Composite(s, ticks[0].capture)), Broke))
  {
    var f := Composite(s, ticks[0].capture);
    var t := Trace(Shown(f), Broke);
    assert FirstStop(ticks) == 0;
    assert LoopExit(ticks, t);
    assert LoopShape(s, ticks, t) by {
      PassLogOrdered(s, ticks[0].capture);
      assert ticks[..0] == [];
      assert Passes(s, ticks[..0]) == [];
      assert t.log == Passes(s, ticks[..0]) + Shown(f);
      assert t.log == LoopLog(s, ticks);
    }
    assert LoopEffects(s, ticks, t) by {
      ShownProjections(f);
      assert ticks[..0] == [];
    }
  }

  /** The projections of a single action. */
  lemma SingleAction(a: Action)
    ensures Writes([a]) == (if a.WriteFrame? then [a.frame] else [])
    ensures Shows([a]) == (if a.ShowFrame? then [a.frame] else [])
    ensures Sleeps([a]) == (if a.Sleep? then [a.duration] else [])
    ensures forall x :: Count([a], x) == if a == x then 1 else 0
  {
    assert [a][1..] == [];
  }

  /** The projections of writing and showing one frame. */
  lemma ShownProjections(f: Frame)
    ensures Writes([WriteFrame(f), ShowFrame(f)]) == [f] && Shows([WriteFrame(f), ShowFrame(f)]) == [f]
    ensures Sleeps([WriteFrame(f), ShowFrame(f)]) == []
    ensures forall x: Action :: !x.WriteFrame? && !x.ShowFrame? ==> Count([WriteFrame(f), ShowFrame(f)], x) == 0
  {
    SingleAction(WriteFrame(f));
    SingleAction(ShowFrame(f));
    LogConcat([WriteFrame(f)], [ShowFrame(f)]);
    assert [WriteFrame(f)] + [ShowFrame(f)] == [WriteFrame(f), ShowFrame(f)];
  }

  /** The projections of one pass that does not stop. */
  lemma PassProjections(f: Frame, period: int, elapsed: int)
    ensures var pass := [WriteFrame(f), ShowFrame(f)] + SleepActions(period, elapsed);
      && Writes(pass) == [f] && Shows(pass) == [f]
      && Sleeps(pass) == (match Pace(period, elapsed) case Some(d) => [d] case None => [])
      && Count(pass, ReleaseWriter) == 0 && Count(pass, CloseWindows) == 0 && Count(pass, StopListener) == 0
  {
    ShownProjections(f);
    var sleeps := SleepActions(period, elapsed);
    LogConcat([WriteFrame(f), ShowFrame(f)], sleeps);
    match Pace(period, elapsed)
    case Some(d) =>
      SingleAction(Sleep(d));
    case None =>
      assert sleeps == [];
  }

  /** A pass that does not stop, followed by the rest of the loop, keeps the loop's contract. */
  lemma LoopPass(s: Session, ticks: seq<Tick>)
    requires |ticks| > 0 && ticks[0].Cycle? && !StopRequested(ticks[0].capture)
    ensures var c := ticks[0].capture;
      var f := Composite(s, c);
      var rest := Loop(s, ticks[1..]);
      LoopContract(s, ticks, Trace(Shown(f) + SleepActions(s.period, c.elapsed) + rest.log, rest.exit))
    decreases |ticks|, 0
  {
    PassThenRest(s, ticks, Composite(s, ticks[0].capture), Loop(s, ticks[1..]));
  }

  /** `LoopPass` for any trace `rest` that keeps the loop's contract on the remaining ticks. */
  lemma PassThenRest(s: Session, ticks: seq<Tick>, f: Frame, rest: Trace)
    requires |ticks| > 0 && ticks[0].Cycle? && !StopRequested(ticks[0].capture)
    requires f == Composite(s, ticks[0].capture)
    requires LoopContract(s, ticks[1..], rest)
    ensures LoopContract(s, ticks, Trace(Shown(f) + SleepActions(s.period, ticks[0].capture.elapsed) + rest.log, rest.exit))
  {
    var t := Trace(Shown(f) + SleepActions(s.period, ticks[0].capture.elapsed) + rest.log, rest.exit);
    assert FirstStop(ticks) == FirstStop(ticks[1..]) + 1;
    assert LoopExit(ticks, t) by {
      var k := FirstStop(ticks);
      if k < |ticks| {
        assert ticks[k] == ticks[1..][k - 1];
      }
    }
    ShapeStep(s, ticks, f, rest);
    EffectsStep(s, ticks, f, rest);
  }

  /** The shape of the log survives one more full pass in front. */
  lemma ShapeStep(s: Session, ticks: seq<Tick>, f: Frame, rest: Trace)
    requires |ticks| > 0 && ticks[0].Cycle? && !StopRequested(ticks[0].capture)
    requires f == Composite(s, ticks[0].capture)
    requires LoopShape(s, ticks[1..], rest)
    ensures LoopShape(s, ticks, Trace(Shown(f) + SleepActions(s.period, ticks[0].capture.elapsed) + rest.log, rest.exit))
  {
    var c := ticks[0].capture;
    var pass := Shown(f) + SleepActions(s.period, c.elapsed);
    var log := pass + rest.log;
    var k := FirstStop(ticks);
    var k1 := FirstStop(ticks[1..]);
    assert k == k1 + 1;
    assert rest.log == Passes(s, ticks[1..][..k1])
        + (if k1 < |ticks[1..]| && ticks[1..][k1].Cycle? then Shown(Composite(s, ticks[1..][k1].capture)) else []);
    assert pass == PassLog(s, c);
    assert log == Passes(s, ticks[..k])
        + (if k < |ticks| && ticks[k].Cycle? then Shown(Composite(s, ticks[k].capture)) else []) by {
      assert ticks[..k][0] == ticks[0];
      assert ticks[..k][1..] == ticks[1..][..k - 1];
      assert Passes(s, ticks[..k]) == pass + Passes(s, ticks[1..][..k - 1]);
      if k < |ticks| {
        assert ticks[k] == ticks[1..][k - 1];
      }
    }
    assert log == LoopLog(s, ticks);
    PassLogOrdered(s, c);
    OrderConcat(pass, rest.log);
  }

  /** The projections of the log survive one more full pass in front. */
  lemma EffectsStep(s: Session, ticks: seq<Tick>, f: Frame, rest: Trace)
    requires |ticks| > 0 && ticks[0].Cycle? && !StopRequested(ticks[0].capture)
    requires f == Composite(s, ticks[0].capture)
    requires LoopEffects(s, ticks[1..], rest)
    ensures LoopEffects(s, ticks, Trace(Shown(f) + SleepActions(s.period, ticks[0].capture.elapsed) + rest.log, rest.exit))
  {
    var c := ticks[0].capture;
    var pass := Shown(f) + SleepActions(s.period, c.elapsed);
    var log := pass + rest.log;
    var k := FirstStop(ticks);
    assert k == FirstStop(ticks[1..]) + 1;
    assert CyclesWritten(ticks) == CyclesWritten(ticks[1..]) + 1 by {
      if k < |ticks| {
        assert ticks[k] == ticks[1..][k - 1];
      }
    }
    assert Shows(log) == Writes(log)
        && Count(log, ReleaseWriter) == 0 && Count(log, CloseWindows) == 0 && Count(log, StopListener) == 0 by {
      PassProjections(f, s.period, c.elapsed);
      LogConcat(pass, rest.log);
    }
    assert |Writes(log)| == CyclesWritten(ticks)
        && (forall i :: 0 <= i < |Writes(log)| ==> ticks[i].Cycle? && Writes(log)[i] == Composite(s, ticks[i].capture)) by {
      PassProjections(f, s.period, c.elapsed);
      PassWrites(s, ticks, pass, rest.log);
    }
    assert Sleeps(log) == Pauses(s.period, ticks[..k]) by {
      PassProjections(f, s.period, c.elapsed);
      PassSleeps(s, ticks, pass, rest.log);
    }
    assert rest.exit.Broke? ==>
        && k < |ticks| && ticks[k].Cycle? && |log| >= 2
        && log[|log| - 2..] == [WriteFrame(Composite(s, ticks[k].capture)), ShowFrame(Composite(s, ticks[k].capture))] by {
      if rest.exit.Broke? {
        assert log[|log| - 2..] == rest.log[|rest.log| - 2..];
        assert ticks[k] == ticks[1..][k - 1];
      }
    }
  }

  /** The frames a non-stopping pass and the rest of the loop write are the composited captures. */
  lemma PassWrites(s: Session, ticks: seq<Tick>, pass: seq<Action>, rest: seq<Action>)
    requires |ticks| > 0 && ticks[0].Cycle?
    requires Writes(pass) == [Composite(s, ticks[0].capture)]
    requires |Writes(rest)| < |ticks|
    requires forall i :: 0 <= i < |Writes(rest)| ==>
      ticks[1..][i].Cycle? && Writes(rest)[i] == Composite(s, ticks[1..][i].capture)
    ensures Writes(pass + rest) == Writes(pass) + Writes(rest)
    ensures forall i :: 0 <= i < |Writes(pass + rest)| ==>
      ticks[i].Cycle? && Writes(pass + rest)[i] == Composite(s, ticks[i].capture)
  {
    LogConcat(pass, rest);
    var w := Writes(pass + rest);
    assert w == [Composite(s, ticks[0].capture)] + Writes(rest);
    assert |w| == 1 + |Writes(rest)|;
    forall i | 0 <= i < |w|
      ensures ticks[i].Cycle? && w[i] == Composite(s, ticks[i].capture)
    {
      if i > 0 {
        assert w[i] == Writes(rest)[i - 1];
        assert ticks[1..][i - 1] == ticks[i];
      }
    }
  }

  /** The sleeps of a non-stopping pass and the rest of the loop are the pauses of the passes
      before the first stop. */
  lemma PassSleeps(s: Session, ticks: seq<Tick>, pass: seq<Action>, rest: seq<Action>)
    requires |ticks| > 0 && ticks[0].Cycle? && !Stops(ticks[0])
    requires Sleeps(pass) == PauseOf(s.period, ticks[0])
    requires Sleeps(rest) == Pauses(s.period, ticks[1..][..FirstStop(ticks[1..])])
    ensures Sleeps(pass + rest) == Pauses(s.period, ticks[..FirstStop(ticks)])
  {
    LogConcat(pass, rest);
    var k := FirstStop(ticks);
    var ts := ticks[..k];
    assert k == FirstStop(ticks[1..]) + 1;
    assert ts[0] == ticks[0];
    assert ts[1..] == ticks[1..][..k - 1];
    assert Pauses(s.period, ts) == PauseOf(s.period, ts[0]) + Pauses(s.period, ts[1..]);
  }


  /** The recorder's state after a script of ticks: what it has done, and whether it has
      left the loop (and so cleaned up). */
  datatype Recorder = Recorder(log: seq<Action>, stopped: bool, raised: bool)

  /** The first stopping tick is an exception other than a keyboard interrupt. */
  predicate EndsByFault(ticks: seq<Tick>) {
    FirstStop(ticks) < |ticks| && ticks[FirstStop(ticks)].Fault?
  }

  /** What the loop inside its `try ... finally` promises about the recorder state `r` it
      reaches on `ticks`:
      - it has left the loop exactly when some tick stops it, and the exception propagates
        exactly when that tick is an exception other than a keyboard interrupt;
      - release, destroy-windows and stop-listener each happened once if it has left the loop,
        as its last three actions, and not at all otherwise;
      - everything before them is the loop's log, pass by pass, in pass order: one frame per
        pass, the composited capture, each frame shown, and the pacing sleeps of the passes
        that did not stop. */
  ghost predicate RunContract(s: Session, ticks: seq<Tick>, r: Recorder) {
    && r.log == LoopLog(s, ticks) + (if r.stopped then Cleanup() else [])
    && RunEffects(s, ticks, r)
  }

  /** `RunContract` without the log equation: how the loop was left, the cleanup, the pass
      order and the log's projections. */
  ghost predicate RunEffects(s: Session, ticks: seq<Tick>, r: Recorder) {
    && (r.stopped <==> FirstStop(ticks) < |ticks|)
    && (r.raised <==> EndsByFault(ticks))
    && Count(r.log, ReleaseWriter) == (if r.stopped then 1 else 0)
    && Count(r.log, CloseWindows) == (if r.stopped then 1 else 0)
    && Count(r.log, StopListener) == (if r.stopped then 1 else 0)
    && (r.stopped ==> |r.log| >= 3 && r.log[|r.log| - 3..] == Cleanup() && PassOrder(r.log[..|r.log| - 3]))
    && (!r.stopped ==> PassOrder(r.log))
    && |Writes(r.log)| == CyclesWritten(ticks)
    && (forall i :: 0 <= i < |Writes(r.log)| ==>
          ticks[i].Cycle? && Writes(r.log)[i] == Composite(s, ticks[i].capture))
    && Shows(r.log) == Writes(r.log)
    && Sleeps(r.log) == Pauses(s.period, ticks[..FirstStop(ticks)])
  }

  /** The loop inside its `try ... finally`. Cleanup runs once, after the loop, whichever way the
      loop was left (break, keyboard interrupt or another exception), and never while the loop
      is still running. */
  function Run(s: Session, ticks: seq<Tick>): (r: Recorder)
    ensures RunContract(s, ticks, r)
  {
    var t := Loop(s, ticks);
    Finished(s, ticks, t);
    Finish(t)
  }

  /** The `finally` block applied to the loop's trace. */
  function Finish(t: Trace): Recorder {
    var done := !t.exit.StillRunning?;
    Recorder(t.log + (if done then Cleanup() else []), done, t.exit.Raised?)
  }

  /** Any trace that keeps the loop's contract, finished by the `finally` block, keeps the
      recorder's contract. */
  lemma Finished(s: Session, ticks: seq<Tick>, t: Trace)
    requires LoopContract(s, ticks, t)
    ensures RunContract(s, ticks, Finish(t))
  {
    var done := !t.exit.StillRunning?;
    var k := FirstStop(ticks);
    assert (done <==> k < |ticks|) && (t.exit.Raised? <==> EndsByFault(ticks));
    assert PassOrder(t.log) && Shows(t.log) == Writes(t.log) && Sleeps(t.log) == Pauses(s.period, ticks[..k]);
    assert |Writes(t.log)| == CyclesWritten(ticks);
    assert forall i :: 0 <= i < |Writes(t.log)| ==>
      ticks[i].Cycle? && Writes(t.log)[i] == Composite(s, ticks[i].capture);
    assert Count(t.log, ReleaseWriter) == 0 && Count(t.log, CloseWindows) == 0 && Count(t.log, StopListener) == 0;
    FinishedLog(s, ticks, t.log, done);
  }

  /** `Finished` on the log alone, once the loop's facts about it are known. */
  lemma FinishedLog(s: Session, ticks: seq<Tick>, log: seq<Action>, done: bool)
    requires PassOrder(log) && Shows(log) == Writes(log)
    requires Count(log, ReleaseWriter) == 0 && Count(log, CloseWindows) == 0 && Count(log, StopListener) == 0
    ensures var full := log + (if done then Cleanup() else []);
      && Count(full, ReleaseWriter) == (if done then 1 else 0)
      && Count(full, CloseWindows) == (if done then 1 else 0)
      && Count(full, StopListener) == (if done then 1 else 0)
      && (done ==> |full| >= 3 && full[|full| - 3..] == Cleanup() && PassOrder(full[..|full| - 3]))
      && (!done ==> PassOrder(full))
      && Writes(full) == Writes(log) && Shows(full) == Writes(full) && Sleeps(full) == Sleeps(log)
  {
    if done {
      CleanupCounted(log);
      CleanupLast(log);
      CleanupKeepsFrames(log);
    } else {
      assert log + [] == log;
    }
  }

  /** Appending the cleanup to a log without any adds each cleanup action once. */
  lemma CleanupCounted(log: seq<Action>)
    requires Count(log, ReleaseWriter) == 0 && Count(log, CloseWindows) == 0 && Count(log, StopListener) == 0
    ensures Count(log + Cleanup(), ReleaseWriter) == 1
    ensures Count(log + Cleanup(), CloseWindows) == 1
    ensures Count(log + Cleanup(), StopListener) == 1
  {
    LogConcat(log, Cleanup());
    CleanupProjections();
  }

  /** The cleanup appended to a log comes last and leaves the log before it as it was. */
  lemma CleanupLast(log: seq<Action>)
    requires PassOrder(log)
    ensures var full := log + Cleanup();
      |full| >= 3 && full[|full| - 3..] == Cleanup() && PassOrder(full[..|full| - 3])
  {
    var full := log + Cleanup();
    assert |full| - 3 == |log|;
    assert full[..|full| - 3] == log;
    assert full[|full| - 3..] == Cleanup();
  }

  /** The cleanup adds no frame and no sleep. */
  lemma CleanupKeepsFrames(log: seq<Action>)
    requires Shows(log) == Writes(log)
    ensures Writes(log + Cleanup()) == Writes(log)
    ensures Shows(log + Cleanup()) == Writes(log + Cleanup())
    ensures Sleeps(log + Cleanup()) == Sleeps(log)
  {
    LogConcat(log, Cleanup());
    CleanupProjections();
  }

  /** The projections of the cleanup sequence: each of its actions once, and nothing else. */
  lemma CleanupProjections()
    ensures Writes(Cleanup()) == [] && Shows(Cleanup()) == [] && Sleeps(Cleanup()) == []
    ensures Count(Cleanup(), ReleaseWriter) == 1 && Count(Cleanup(), CloseWindows) == 1 && Count(Cleanup(), StopListener) == 1
  {
    var c := Cleanup();
    assert c[1..] == [CloseWindows, StopListener];
    assert c[1..][1..] == [StopListener];
    assert c[1..][1..][1..] == [];
  }

  /** The F5 flag is read only after the pass has written its frame: a flag already set when a
      pass starts still lets that pass write one frame, and then the recorder cleans up. */
  lemma StopFlagAtPassStartStillWritesOneFrame(s: Session, ticks: seq<Tick>)
    requires |ticks| > 0 && ticks[0].Cycle? && ticks[0].capture.stopFlag
    ensures Run(s, ticks).stopped
    ensures Writes(Run(s, ticks).log) == [Composite(s, ticks[0].capture)]
  {
    var r := Run(s, ticks);
    assert FirstStop(ticks) == 0;
    assert |Writes(r.log)| == 1;
  }

  /** A keyboard interrupt before the first pass: no frame, and cleanup once. */
  lemma InterruptBeforeFirstPass(s: Session, ticks: seq<Tick>)
    requires |ticks| > 0 && ticks[0].Interrupt?
    ensures Run(s, ticks).log == Cleanup()
  {
    assert FirstStop(ticks) == 0;
    assert Loop(s, ticks).log == [];
  }

  /** Each sleep follows its own pass: a short pass sleeps before the next pass starts, and a
      pass that overruns the period does not sleep, even when an interrupt ends the loop right
      after it. */
  lemma SleepFollowsItsPass(s: Session, a: Capture, b: Capture)
    requires !StopRequested(a) && !StopRequested(b)
    requires a.elapsed < s.period <= b.elapsed
    ensures Run(s, [Cycle(a), Cycle(b), Interrupt]).log ==
      [WriteFrame(Composite(s, a)), ShowFrame(Composite(s, a)), Sleep(s.period - a.elapsed),
       WriteFrame(Composite(s, b)), ShowFrame(Composite(s, b))] + Cleanup()
  {
    TwoPassesThenInterrupt(s, a, b);
    RunLog(s, [Cycle(a), Cycle(b), Interrupt]);
  }

  /** The loop's log for two passes and an interrupt. */
  lemma TwoPassesThenInterrupt(s: Session, a: Capture, b: Capture)
    requires !StopRequested(a) && !StopRequested(b)
    requires a.elapsed < s.period <= b.elapsed
    ensures FirstStop([Cycle(a), Cycle(b), Interrupt]) == 2
    ensures LoopLog(s, [Cycle(a), Cycle(b), Interrupt]) ==
      [WriteFrame(Composite(s, a)), ShowFrame(Composite(s, a)), Sleep(s.period - a.elapsed),
       WriteFrame(Composite(s, b)), ShowFrame(Composite(s, b))]
  {
    var ticks := [Cycle(a), Cycle(b), Interrupt];
    assert ticks[1..] == [Cycle(b), Interrupt] && ticks[1..][1..] == [Interrupt];
    assert FirstStop([Interrupt]) == 0;
    assert FirstStop(ticks[1..]) == 1;
    assert FirstStop(ticks) == 2;
    var ts := ticks[..2];
    assert ts == [Cycle(a), Cycle(b)] && ts[1..] == [Cycle(b)] && ts[1..][1..] == [];
    assert Passes(s, ts[1..]) == PassLog(s, b) + Passes(s, []);
    assert Passes(s, ts) == PassLog(s, a) + PassLog(s, b);
    assert PassLog(s, a) == [WriteFrame(Composite(s, a)), ShowFrame(Composite(s, a)), Sleep(s.period - a.elapsed)];
    assert PassLog(s, b) == [WriteFrame(Composite(s, b)), ShowFrame(Composite(s, b))];
  }

  /** The recorder's log is the loop's, followed by the cleanup once the loop has been left. */
  lemma RunLog(s: Session, ticks: seq<Tick>)
    ensures Run(s, ticks).log == LoopLog(s, ticks) + (if FirstStop(ticks) < |ticks| then Cleanup() else [])
  {
  }

  /** The settings `main` takes from the command line: monitor index, output file name, cursor
      sprite size, and the frame period in integer time units. */
  datatype Options = Options(monitor: int, output: string, cursorSize: int, period: int)

  /** The whole program: what it did, and its exit status once it has ended (`None` while it is
      still recording). */
  datatype Outcome = Outcome(log: seq<Action>, status: Option<int>)

  /** The setup steps end the program: the cursor file exists but does not decode, or decodes
      but cannot be resized to the requested size, or the monitor index is out of range. */
  predicate SetupFails(opts: Options, cursorFile: CursorFile, monitors: seq<Monitor>) {
    || cursorFile.Undecodable?
    || (cursorFile.Decoded? && opts.cursorSize <= 0)
    || !(0 <= opts.monitor < |monitors|)
  }

  /** `main`: load the cursor, select the monitor, open the writer with the codec the file name
      selects and the preview window, then record. A setup failure exits with status 1 before
      the writer is opened or any frame is written. A recording ended by a stop condition or a
      keyboard interrupt exits with status 0 after cleanup; one ended by another exception
      exits with status 1 after cleanup. */
  function RecordScreen(opts: Options, cursorFile: CursorFile, monitors: seq<Monitor>, ticks: seq<Tick>): (o: Outcome)
    ensures o.status == Some(1) <==> SetupFails(opts, cursorFile, monitors) || EndsByFault(ticks)
    ensures SetupFails(opts, cursorFile, monitors) ==> o.log == []
    ensures o.status == Some(0) <==> !SetupFails(opts, cursorFile, monitors) && FirstStop(ticks) < |ticks| && !EndsByFault(ticks)
    ensures o.status.Some? ==> o.status == Some(0) || o.status == Some(1)
    ensures !SetupFails(opts, cursorFile, monitors) ==>
      && |o.log| >= 2
      && o.log[0] == OpenWriter(opts.output, GetCodec(opts.output), monitors[opts.monitor].width, monitors[opts.monitor].height)
      && o.log[1] == OpenPreview(PreviewSize(monitors[opts.monitor]).0, PreviewSize(monitors[opts.monitor]).1)
      && |Writes(o.log)| == CyclesWritten(ticks)
      && Count(o.log, ReleaseWriter) == (if o.status.Some? then 1 else 0)
      && Count(o.log, CloseWindows) == (if o.status.Some? then 1 else 0)
      && Count(o.log, StopListener) == (if o.status.Some? then 1 else 0)
      && (o.status.Some? ==> |o.log| >= 5 && o.log[|o.log| - 3..] == Cleanup())
    ensures !SetupFails(opts, cursorFile, monitors) ==>
      && o.log[2..] == Run(SessionFor(opts, cursorFile, monitors), ticks).log
      && (forall i :: 0 <= i < |Writes(o.log)| ==>
            ticks[i].Cycle? && Writes(o.log)[i] == Composite(SessionFor(opts, cursorFile, monitors), ticks[i].capture))
      && Sleeps(o.log) == Pauses(opts.period, ticks[..FirstStop(ticks)])
  {
    match LoadCursor(cursorFile, opts.cursorSize)
    case Failure(_) => Outcome([], Some(1))
    case Success(cursor) =>
      match SelectMonitor(monitors, opts.monitor)
      case Failure(_) => Outcome([], Some(1))
      case Success(m) =>
        assert m == monitors[opts.monitor] && !SetupFails(opts, cursorFile, monitors);
        var preview := PreviewSize(m);
        var opening := [OpenWriter(opts.output, GetCodec(opts.output), m.width, m.height), OpenPreview(preview.0, preview.1)];
        var s := Session(m, cursor, opts.period);
        assert s == SessionFor(opts, cursorFile, monitors);
        var r := Run(s, ticks);
        Concluded(s, ticks, opening, r);
        Conclude(opening, r)
  }

  /** The session a successful setup records with: the selected monitor, the sprite if the
      cursor file decoded and none if it is missing, and the requested frame period. */
  function SessionFor(opts: Options, cursorFile: CursorFile, monitors: seq<Monitor>): Session
    requires 0 <= opts.monitor < |monitors|
  {
    Session(monitors[opts.monitor], if cursorFile.Decoded? then Some(cursorFile.sprite) else None, opts.period)
  }

  /** The recording after the openings, with the exit status the way the loop was left gives:
      none while recording, 1 after an exception, 0 otherwise. */
  function Conclude(opening: seq<Action>, r: Recorder): Outcome {
    Outcome(opening + r.log, if !r.stopped then None else if r.raised then Some(1) else Some(0))
  }

  /** What `RecordScreen` promises after a successful setup, for any recorder state that keeps
      the recorder's contract apart from its log equation. */
  lemma Concluded(s: Session, ticks: seq<Tick>, opening: seq<Action>, r: Recorder)
    requires |opening| == 2 && opening[0].OpenWriter? && opening[1].OpenPreview?
    requires RunEffects(s, ticks, r)
    ensures var o := Conclude(opening, r);
      && (o.status == Some(1) <==> EndsByFault(ticks))
      && (o.status == Some(0) <==> FirstStop(ticks) < |ticks| && !EndsByFault(ticks))
      && (o.status.Some? ==> o.status == Some(0) || o.status == Some(1))
      && |o.log| >= 2 && o.log[0] == opening[0] && o.log[1] == opening[1]
      && |Writes(o.log)| == CyclesWritten(ticks)
      && Count(o.log, ReleaseWriter) == (if o.status.Some? then 1 else 0)
      && Count(o.log, CloseWindows) == (if o.status.Some? then 1 else 0)
      && Count(o.log, StopListener) == (if o.status.Some? then 1 else 0)
      && (o.status.Some? ==> |o.log| >= 5 && o.log[|o.log| - 3..] == Cleanup())
      && o.log[2..] == r.log
      && (forall i :: 0 <= i < |Writes(o.log)| ==> ticks[i].Cycle? && Writes(o.log)[i] == Composite(s, ticks[i].capture))
      && Sleeps(o.log) == Pauses(s.period, ticks[..FirstStop(ticks)])
  {
    OpeningPrepended(opening, r.log);
  }

  /** Putting the writer and preview openings in front of a log adds no frame and no release,
      keeps them first, and keeps the log's last actions last. */
  lemma OpeningPrepended(opening: seq<Action>, log: seq<Action>)
    requires |opening| == 2 && opening[0].OpenWriter? && opening[1].OpenPreview?
    ensures Writes(opening + log) == Writes(log)
    ensures Sleeps(opening + log) == Sleeps(log)
    ensures Count(opening + log, ReleaseWriter) == Count(log, ReleaseWriter)
    ensures Count(opening + log, CloseWindows) == Count(log, CloseWindows)
    ensures Count(opening + log, StopListener) == Count(log, StopListener)
    ensures (opening + log)[2..] == log
    ensures |opening + log| >= 2 && (opening + log)[0] == opening[0] && (opening + log)[1] == opening[1]
    ensures |log| >= 3 ==> (opening + log)[|opening + log| - 3..] == log[|log| - 3..]
  {
    SingleAction(opening[0]);
    SingleAction(opening[1]);
    LogConcat([opening[0]], [opening[1]]);
    assert opening == [opening[0]] + [opening[1]];
    LogConcat(opening, log);
  }

  /** A collaborator raising an exception in the first pass, after a successful setup: no frame
      is written, cleanup runs once, and the program still ends with status 1. */
  lemma FaultInFirstPass(opts: Options, cursorFile: CursorFile, monitors: seq<Monitor>, ticks: seq<Tick>)
    requires !SetupFails(opts, cursorFile, monitors)
    requires |ticks| > 0 && ticks[0].Fault?
    ensures var o := RecordScreen(opts, cursorFile, monitors, ticks);
      && o.status == Some(1)
      && Writes(o.log) == []
      && o.log[2..] == Cleanup()
  {
    assert FirstStop(ticks) == 0;
    var o := RecordScreen(opts, cursorFile, monitors, ticks);
    assert |o.log| == 5;
  }

  /** Without a cursor file the recorder writes the raw captures: every written frame is the
      frame its pass captured. */
  lemma MissingCursorRecordsCaptures(opts: Options, monitors: seq<Monitor>, ticks: seq<Tick>)
    requires !SetupFails(opts, Missing, monitors)
    ensures var o := RecordScreen(opts, Missing, monitors, ticks);
      forall i :: 0 <= i < |Writes(o.log)| ==> ticks[i].Cycle? && Writes(o.log)[i] == ticks[i].capture.frame
  {
  }

  /** With a decoded cursor file the frames written are the composited captures of the session
      with the selected monitor, that sprite and the requested period. */
  lemma DecodedCursorSession(opts: Options, sprite: Sprite, monitors: seq<Monitor>, ticks: seq<Tick>)
    requires !SetupFails(opts, Decoded(sprite), monitors)
    ensures var w := Writes(RecordScreen(opts, Decoded(sprite), monitors, ticks).log);
      forall i :: 0 <= i < |w| ==>
        ticks[i].Cycle? && w[i] == Composite(Session(monitors[opts.monitor], Some(sprite), opts.period), ticks[i].capture)
  {
  }
}

=== FILE: results.dfy ===
/** Optional values and setup outcomes shared by the modules of the screen recorder model. */
module Results {

  /** A value that may be absent, as Python's `None`. */
  datatype Option<+T> = None | Some(value: T)

  /** The outcome of a setup step: a value, or the error that makes the program exit. */
  datatype Result<+T, +E> = Success(value: T) | Failure(error: E)
}

=== FILE: setup.dfy ===
/** The setup steps of the recorder before its loop starts: loading the cursor sprite,
    choosing the monitor, sizing the preview, and translating pointer positions. */
module Setup {
  import opened Results
  import opened Overlay

  /** One entry of the capture library's monitor list: screen-space origin and size. */
  datatype Monitor = Monitor(left: int, top: int, width: nat, height: nat)

  /** A position in screen or frame coordinates. */
  datatype Point = Point(x: int, y: int)

  /** The setup failures that end the program with exit status 1. `CursorResizeFailed` carries
      the requested sprite size, `InvalidMonitor` the rejected index and the last index the
      error message lists. */
  datatype SetupError = CursorUnreadable | CursorResizeFailed(size: int) | InvalidMonitor(index: int, lastListed: int)

  /** What the file system and the image decoder report for the cursor path. A decoded image is
      given as the resize to a positive square size returns it. */
  datatype CursorFile = Missing | Undecodable | Decoded(sprite: Sprite)

  /** The cursor decision for the sprite size `size`: a path that does not exist means recording
      without a cursor, whatever the size; a path that exists but does not decode is fatal; a
      decoded image is resized, which fails for a size that is not positive (the exception is
      not the one the loader catches, so it ends the program too); otherwise the resized image
      becomes the sprite. */
  function LoadCursor(file: CursorFile, size: int): (r: Result<Option<Sprite>, SetupError>)
    ensures r.Failure? <==> file.Undecodable? || (file.Decoded? && size <= 0)
    ensures r.Failure? && file.Undecodable? ==> r.error == CursorUnreadable
    ensures r.Failure? && file.Decoded? ==> r.error == CursorResizeFailed(size)
    ensures r.Success? ==> (r.value.Some? <==> file.Decoded?)
    ensures r.Success? && r.value.Some? ==> r.value.value == file.sprite
  {
    match file
    case Missing => Success(None)
    case Undecodable => Failure(CursorUnreadable)
    case Decoded(s) => if size <= 0 then Failure(CursorResizeFailed(size)) else Success(Some(s))
  }

  /** Index `index` into the monitor list. Every index from 0, the entry spanning all monitors,
      to the last one is accepted; any other index is rejected. */
  function SelectMonitor(monitors: seq<Monitor>, index: int): (r: Result<Monitor, SetupError>)
    ensures r.Success? <==> 0 <= index < |monitors|
    ensures r.Success? ==> r.value == monitors[index]
    ensures r.Failure? ==> r.error == InvalidMonitor(index, |monitors| - 1)
  {
    if index < 0 || index >= |monitors| then Failure(InvalidMonitor(index, |monitors| - 1))
    else Success(monitors[index])
  }

  /** Index 0 is accepted whenever the list is non-empty, although the error message for a bad
      index lists the valid range as starting at 1. */
  lemma AllMonitorsEntryAccepted(monitors: seq<Monitor>)
    requires |monitors| > 0
    ensures SelectMonitor(monitors, 0) == Success(monitors[0])
    ensures SelectMonitor(monitors, -1).Failure? && SelectMonitor(monitors, |monitors|).Failure?
  {
  }

  /** The preview window is a quarter of the capture resolution in each direction, rounded down. */
  function PreviewSize(m: Monitor): (size: (nat, nat))
    ensures 4 * size.0 <= m.width < 4 * size.0 + 4
    ensures 4 * size.1 <= m.height < 4 * size.1 + 4
  {
    (m.width / 4, m.height / 4)
  }

  predicate InMonitor(p: Point, m: Monitor) {
    m.left <= p.x < m.left + m.width && m.top <= p.y < m.top + m.height
  }

  /** Frame coordinates back to screen coordinates. */
  function ToScreen(q: Point, m: Monitor): Point {
    Point(q.x + m.left, q.y + m.top)
  }

  /** A screen-space pointer position in the captured frame's coordinates. The result may be
      negative or past the frame's edge; it lies inside the frame exactly when the pointer is
      on the monitor. */
  function ToFrame(p: Point, m: Monitor): (q: Point)
    ensures ToScreen(q, m) == p
    ensures InMonitor(p, m) <==> 0 <= q.x < m.width && 0 <= q.y < m.height
  {
    Point(p.x - m.left, p.y - m.top)
  }

  /** Translating from screen to frame coordinates loses nothing: the two maps are inverse. */
  lemma FrameCoordinatesRoundTrip(q: Point, m: Monitor)
    ensures ToFrame(ToScreen(q, m), m) == q
  {
  }
}
